=== FILE: README.md ===
# ESR dashboard data shaping, modelled in Dafny

This project models the data-shaping core of `esr_views.py`, the view layer
of a dashboard over USDA Export Sales Reporting (ESR) data. The model keeps
the data logic of the views and leaves out the drawing. It covers:

- **The seasonal pipeline** shared by `seasonal_commitments_plot` and
  `seasonal_line_plot`:
  - reject a frame without an `MY` column;
  - sum the report rows to one row per (MY, week-ending date), sorted by
    (MY, date);
  - number the weeks of each marketing year (`MktingWeek = cumcount() + 1`);
  - take the current marketing year (CMY) as `mode().iloc[0]` of the MYs at
    the latest date;
  - choose the years to draw (`prev_years`, `plot_years`);
  - size the week axis (`xmax = max(52, max week)`);
  - label the axis with the month list rotated to the marketing-year start
    month.
- **The single-week snapshot** `build_last_week`:
  - keep the selected date, by default the latest;
  - add `Cancel = grossNewSales - currentMYNetSales`;
  - shorten two country descriptions.
- **The headline numbers** `compute_kpis`, `weekly_sales_table` and
  `total_exports_table`.
- **The destination rankings** `commitments_hbar` (top 20 by commitment,
  then ascending) and `commitments_table` (rows with a country, descending).

Modules, one per stage of the code:

- `EsrData`: rows, measures, columns, results and errors.
- `Arith`: integer minimum and maximum.
- `Slices`: Python's slice-bound rules.
- `Aggregation`: group-by-sum.
- `MarketingWeeks`: week numbering.
- `CurrentYear`: the CMY.
- `YearSelection`: the years drawn.
- `MonthAxis`: month labels and ticks.
- `Seasonal`: the two plot pipelines.
- `LastWeek`: the snapshot and the KPIs.
- `Ranking`: the two rankings.

How the model represents the code:

- **Rows.** A report row has an integer marketing year, a date, an
  integer country code, an optional country description and eight integer
  measures. The date is a day number; only its order and equality matter.
- **Marketing year.** The `MY` value is an input field. The code has no
  rule that derives it from the date: the download loop stamps each row
  with the year it requested (`usda_api.py:26`).
- **Errors.** `Result` values stand for the exceptions the views raise:
  - a missing `MY` column (the `ValueError`);
  - a `value_col` that is not one of the eight measure columns. For a
    name that is not a column of `df_totals` pandas raises `KeyError`; for
    `MY` or `weekEndingDate` it raises `ValueError`; the frame's other
    columns the model rejects by choice (see "## Left out");
  - an empty frame, where `mode().iloc[0]` has nothing to index.
- **Python slices.** Slice bounds follow Python exactly. `[-years:]` with
  `years == 0` keeps every year, and with `years < 0` it drops the first
  `-years`. `my_start_month` outside 1..12 still yields a rotation of the
  twelve months.
- **Sorting.** pandas' default sort is not stable. The model sorts by
  insertion, and its contracts state only facts that hold for every
  tie-break: the order, the permutation, and which rows make the top 20.

The views have no rule that derives an MY from a date: `MY` arrives
stamped by `usda_api.py:26`. The CMY comes from the data's latest date,
never from the clock. It is the smallest MY among the rows at that date,
because aggregated (MY, date) pairs are unique, so every MY there is a
mode.

Both plots default to `my_start_month=8`, and the line plot to
`years=5`. The dashboard calls `seasonal_commitments_plot(df)` with the
default, so the model gives the defaulted calls as functions of their own
(`Seasonal.DefaultSeasonalCommitments`, `Seasonal.DefaultSeasonalLine`).

## Model

| member | source | states |
|---|---|---|
| `EsrData.ColumnNamed` | esr_views.py:278 | Selecting `value_col` finds the column with exactly that name, or reports that no measure column carries it. |
| `EsrData.MaxDate` | esr_views.py:35-36 | The latest date is a date of some row and no row is later; there is none exactly when there are no rows. |
| `Slices.Rotation` | esr_views.py:226 | For any bound, `s[k:] + s[:k]` has the elements of `s`, and position i holds `s[(i + p) % len]` for the resolved bound p. |
| `Aggregation.Aggregate` | esr_views.py:152-158 | The grouped frame is strictly ascending in (MY, date), and its keys are exactly the (MY, date) pairs of the input. |
| `Aggregation.AggregatePreservesTotal` | esr_views.py:152-155 | Grouping preserves the grand total of every column. |
| `Aggregation.AggregateGroupSums` | esr_views.py:152-155 | The sums recorded for any (MY, date) are the sums of exactly the input rows with that pair, and zero for a pair no row has. |
| `Aggregation.AggregateRowIsGroupSum` | esr_views.py:281-285 | Every row of the grouped frame holds the column sums of the input rows of its own (MY, date). |
| `Aggregation.OneRowPerPair` | esr_views.py:152-155 | The grouped frame has one row per distinct (MY, date) pair of the input and no other rows. |
| `MarketingWeeks.Number` | esr_views.py:159 | Numbering keeps every row's MY, date and sums, and gives it a week between 1 and the number of rows of its year. |
| `MarketingWeeks.NumberIsCumcount` | esr_views.py:159 | A row's week is one more than the number of earlier rows of its year, which is what `cumcount() + 1` means. |
| `MarketingWeeks.WeeksFollowDates` | esr_views.py:158-159 | Within a marketing year, one date is earlier than another exactly when its week is smaller. |
| `MarketingWeeks.Series` | esr_views.py:165 | `weekly[weekly["MY"] == y]` holds exactly the rows of year y. |
| `MarketingWeeks.SeriesConsecutive` | esr_views.py:286 | The rows of each year carry weeks 1, 2, ..., W in order, with W the year's row count: no gap and no repeat. |
| `MarketingWeeks.SeriesDatesIncrease` | esr_views.py:158 | Along a year's rows the dates strictly increase. |
| `MarketingWeeks.WeeksPerYear` | esr_views.py:281-286 | A year with W distinct input dates gets exactly W grouped rows, numbered 1..W. |
| `CurrentYear.LatestDate` | esr_views.py:162 | The latest date of the grouped frame is the date of one of its rows and no row is later. |
| `CurrentYear.MysAt` | esr_views.py:163 | The MYs at a date are exactly the MYs of the rows with that date, and there is one whenever such a row exists. |
| `CurrentYear.ModeFirst` | esr_views.py:163 | `mode().iloc[0]` is a value of the list, no value is more frequent, and it is the smallest of the most frequent values. |
| `CurrentYear.CurrentMy` | esr_views.py:288-289 | The CMY is the MY of some row at the latest date. |
| `CurrentYear.ModeOfDistinctIsMin` | esr_views.py:163 | When no value repeats, `mode().iloc[0]` is the minimum. |
| `CurrentYear.CurrentMyIsSmallestAtLatest` | esr_views.py:162-163 | In the grouped frame no row at the latest date has an MY below the CMY. |
| `CurrentYear.LatestDateOfInput` | esr_views.py:162 | The latest date of the grouped frame is the latest input date. |
| `CurrentYear.CurrentMyOfInput` | esr_views.py:288-289 | In terms of the input: some row at the latest input date has MY equal to the CMY, and none there has a smaller MY. |
| `YearSelection.SortedUnique` | esr_views.py:184 | `sorted(unique)` is strictly ascending and holds exactly the values of the list. |
| `YearSelection.IncreasingIsUnique` | esr_views.py:291 | Two strictly ascending lists with the same values are equal, so the sorted year list is determined by the years present. |
| `YearSelection.Below` | esr_views.py:184 | The filter keeps every value below the bound as often as it occurs, and no other value; an ascending list stays ascending. |
| `YearSelection.PrevYears` | esr_views.py:184 | `prev_years` is ascending, holds only MYs of the frame below the CMY, and has min(5, count) of them. Every such year left out is older than every year kept. |
| `YearSelection.PlotYears` | esr_views.py:291 | `plot_years` is ascending and holds MYs up to the CMY. Its length is Python's `[-years:]` of their count. The years left out are older, and for years >= 1 the CMY is kept. |
| `MonthAxis.Ordered` | esr_views.py:226 | The rotated month list has the twelve months, each as often as before, starting at the resolved start position. |
| `MonthAxis.LabelIndex` | esr_views.py:229 | `min((w-1)//4, 11)` lies in 0..11. Up to week 44 it picks the four-week block holding w, and from week 45 on it is 11. |
| `MonthAxis.MonthLabels` | esr_views.py:225-229 | There is one label per week 1..xmax. Week w shows the month `LabelIndex(w)` places after the position `my_start_month - 1` resolves to under Python's slice rules, for every start month including those outside 1..12. |
| `MonthAxis.TickText` | esr_views.py:227-232 | Tick k sits on week 4k + 1 and carries that week's month label. |
| `MonthAxis.Ticks` | esr_views.py:231-232 | Ticks fall on weeks 1, 5, 9, ... up to xmax, and none is missing. Each carries its week's month label. |
| `MonthAxis.LabelOfWeek` | esr_views.py:320-322 | For a start month in 1..12, week w is labelled with the month `LabelIndex(w)` months after the start month. |
| `MonthAxis.FirstAndLateLabels` | esr_views.py:225-229 | Week 1 shows the start month, and every week from 45 on shows the month just before it. |
| `MonthAxis.TwelveTicksSpellOrderedMonths` | esr_views.py:323-324 | On an axis of at least 45 weeks the first twelve ticks spell out the rotated month list. |
| `MonthAxis.OrderedIsRotation` | esr_views.py:319-320 | For every start month the labels are a rotation of the months. Start month m in 1..12 comes first. Out-of-range start months that Python clamps leave the list unrotated. |
| `Seasonal.MyColumn` | esr_views.py:184 | `weekly["MY"]` holds exactly the MYs of the frame's rows. |
| `Seasonal.XMax` | esr_views.py:202 | The axis extent is at least 52 and at least every week, and it is 52 or some row's week. |
| `Seasonal.SeriesRowIsGroup` | esr_views.py:188 | A row of year y in `weekly` carries the sums of the input rows of (y, its date), and that date is an input date of y. |
| `Seasonal.YearPointsFaithful` | esr_views.py:187-190 | Each year's line has weeks 1..W in order, one per distinct input date of that year, with ascending dates. Each point's value is the plotted quantity summed over the input rows of its (MY, date). |
| `Seasonal.WeeklyEmptyIffNoRows` | esr_views.py:163 | The grouped frame is empty exactly when the input is, which is when `mode().iloc[0]` fails. |
| `Seasonal.WeeklyYears` | esr_views.py:291 | The MYs of `weekly` are exactly the MYs of the input. |
| `Seasonal.CmyOfInput` | esr_views.py:161-163 | Both plots' CMY is the smallest MY among the input rows at the latest date. |
| `Seasonal.YearFitsAxis` | esr_views.py:202 | Every input year, drawn or not, has no more report dates than the axis has weeks. |
| `Seasonal.AxisIsSomeYear` | esr_views.py:202 | An axis wider than 52 weeks is exactly as wide as some input year has report dates. |
| `Seasonal.XMaxOfInput` | esr_views.py:202 | The axis is at least 52 weeks, fits every input year's report dates, and is 52 or the date count of some input year. |
| `Seasonal.BarsFaithful` | esr_views.py:165-181 | The CMY's bars are weeks 1..W, one per input date of the CMY with the dates ascending, so bar w is the CMY's w-th report date, all within the axis. They stack the summed accumulated exports and outstanding sales of that date. |
| `Seasonal.LinesFaithful` | esr_views.py:296-299 | Every line drawn is faithful to the input and lies within the axis. |
| `Seasonal.PrevYearsFrom` | esr_views.py:184 | `prev_years` taken from any list with the same years keeps the latest five or fewer of those years before the CMY. |
| `Seasonal.PriorYearsChosen` | esr_views.py:184-188 | The commitments plot's prior-year lines are the latest five or fewer distinct input years before the CMY, ascending. |
| `Seasonal.PlotYearsLatest` | esr_views.py:291 | The years `plot_years` keeps are input years up to the CMY, ascending, and newer than every such year left out. |
| `Seasonal.PlotYearsCount` | esr_views.py:291 | `plot_years` has as many years as Python's `[-years:]` leaves of the distinct input years up to the CMY. |
| `Seasonal.PlotYearsFrom` | esr_views.py:291 | `plot_years` taken from any list with the same years is the selection the line plot promises. |
| `Seasonal.PlotYearsChosen` | esr_views.py:291-296 | The line plot draws exactly the `plot_years` selection of the input years, ending with the CMY when years >= 1. |
| `Seasonal.CmyIsLastPlotYear` | esr_views.py:291 | When years >= 1 and the CMY is among the years, it is the last year drawn. |
| `Seasonal.SeasonalCommitments` | esr_views.py:143-163 | The commitments plot fails on a frame without `MY`, then on an empty frame, and succeeds otherwise. |
| `Seasonal.CommitmentsChartFacts` | esr_views.py:143-235 | For a frame with an `MY` column and at least one row, the commitments chart exists. It has the CMY of the latest date and faithful CMY bars. Its prior years are the latest five or fewer before the CMY, each line faithful. The axis is 52 weeks or the largest number of report dates of any input year, whichever is more, with the month ticks. |
| `Seasonal.SeasonalLine` | esr_views.py:267-289 | The line plot fails on a frame without `MY`, then on an unknown `value_col`, then on an empty frame, and succeeds otherwise. |
| `Seasonal.LineChartFacts` | esr_views.py:267-327 | For a frame with an `MY` column, a known value column and at least one row, the line chart exists. It has the CMY of the latest date and the `plot_years` selection, each line faithful to the chosen column. The axis is 52 weeks or the largest number of report dates of any input year, whichever is more, with the month ticks. |
| `Seasonal.DefaultTicksRotate` | esr_views.py:225-232 | The general twelve-tick fact for the default start month: the first twelve ticks of an axis of 52 weeks or more spell the months from the eighth round to the seventh, and the thirteenth repeats the seventh. |
| `Seasonal.DefaultAxisRunsAugustToJuly` | esr_views.py:225-232 | With the default start month every axis the plots draw runs Aug, Sep, ..., Jul, and week 49 is still July. |
| `Seasonal.DefaultYearsEndAtCmy` | esr_views.py:273-291 | With `years=5` the line plot draws one to five years, the last of them the CMY. |
| `Seasonal.DefaultSeasonalCommitments` | esr_views.py:143 | `seasonal_commitments_plot(df)` with the default start month fails and succeeds as the general plot does, and its axis runs from August to July. |
| `Seasonal.DefaultLineFacts` | esr_views.py:267-324 | With the defaults and an input the line plot accepts, the chart exists, its axis runs from August to July, and it has one to five lines ending with the CMY. |
| `Seasonal.DefaultSeasonalLine` | esr_views.py:267-274 | `seasonal_line_plot(df, value_col, title)` with the defaults fails and succeeds as the general plot does; a chart it returns runs August to July and has one to five lines ending with the CMY. |
| `LastWeek.CleanCountryFacts` | esr_views.py:47-56 | Exactly the two long names are rewritten, to "CHINA" and "S. KOREA". A missing description stays missing, and cleaning twice changes nothing more. |
| `LastWeek.AtDate` | esr_views.py:38 | The date filter keeps every row at that date as often as it occurs in the frame, and no other row. |
| `LastWeek.DatePositions` | esr_views.py:38 | The positions of the frame rows at a date, ascending, each in range, and none missing. |
| `LastWeek.AtDateInFrameOrder` | esr_views.py:38 | The filter keeps frame order: its k-th row is the frame row at the k-th position with that date. |
| `LastWeek.SnapshotInFrameOrder` | esr_views.py:32-56 | The snapshot has one row per frame row at the snapshot date, in frame order, each built from that frame row. |
| `LastWeek.BuildLastWeek` | esr_views.py:32-56 | The snapshot holds the filtered rows of the selected date, or the latest date by default. Each keeps its code and measures, has its country cleaned, and carries `Cancel = gross - net`. With no rows and no selection it is empty. |
| `LastWeek.ComputeKpis` | esr_views.py:62-74 | Each headline number is the sum of its column over the snapshot. |
| `LastWeek.CancelKpiIsGrossMinusNet` | esr_views.py:33 | When every row's Cancel is gross minus net sales, the cancel KPI is the gross-new-sales KPI minus the net-new-sales KPI. |
| `LastWeek.SnapshotCancelIdentity` | esr_views.py:67 | For every snapshot `build_last_week` builds, cancellations equal gross new sales minus net new sales. |
| `LastWeek.WeeklySalesTable` | esr_views.py:77-84 | The weekly table holds the summed net sales, shipments, cancellations and next-MY sales. |
| `LastWeek.TotalExportsTable` | esr_views.py:86-93 | The totals table holds the summed accumulated exports, outstanding sales, commitment and next-MY outstanding sales. |
| `Ranking.Sort` | esr_views.py:122 | Sorting by commitment orders the rows and keeps each row as often as before. |
| `Ranking.HeadKeepsLargest` | esr_views.py:123 | After a descending sort, every row dropped by `head(n)` has no larger commitment than any row kept. |
| `Ranking.CommitmentsHbar` | esr_views.py:119-125 | The bar chart keeps min(20, n) snapshot rows, none with a smaller commitment than a row dropped, in ascending order of commitment. |
| `Ranking.WithCountry` | esr_views.py:247 | `dropna` keeps every row with a country as often as it occurs and drops every row without one. |
| `Ranking.CommitmentsTable` | esr_views.py:239-249 | The table holds every snapshot row with a country, each as often as in the snapshot, and no other rows, in descending order of commitment. |

## Left out

- Network and file I/O, out of the views' scope:
  - the ESR download `get_esr_exports` (`usda_api.py`). It requests each
    marketing year in turn and raises on the first failed request; it has
    no retry;
  - the WASDE export lookup `get_wasde_export` (`usda_api.py:51-53`). When
    the first answer is empty or lacks `attributeId` it asks again, meaning
    to ask for the previous year, but `fetch` ignores its argument
    (`usda_api.py:45-46`), so it requests the same year again;
  - the country-code spreadsheet (`read_excel`, `str.strip`, the merge).
    The merge's result is modelled as an optional country description on
    each row.
- The dashboard UI (`streamlitapp.py`): widgets, caching and layout.
- Rendering:
  - figures, colours, legends, text placement and tick formatting;
  - the optional WASDE line and the `unit_k` and `title` labels, which are
    display parameters only;
  - `treemap_net_sales`, which only draws.
- The `/ 1_000` and `/ 1e3` display scaling. It is floating-point
  presentation, and the model keeps measures as unscaled integers.
- Date parsing (`pd.to_datetime`): dates are already day numbers.
- EsrData.ColumnNamed: the model accepts only the eight measure columns as
  `value_col`; every other name gives `Err(UnknownColumn)`.
  - For `MY` and `weekEndingDate` the source fails too, with a different
    exception. Selecting `["MY", "weekEndingDate", value_col]` duplicates
    the label. With `MY`, the `groupby` (esr_views.py:281) raises
    `ValueError`. With `weekEndingDate`, `pd.to_datetime` (esr_views.py:279)
    gets a two-column frame and raises `ValueError`.
  - The frame's other non-measure columns (`countryCode`, and the raw
    report's identifier columns such as `commodityCode` and `unitId`) would
    be summed per week and plotted. The model rejects them by choice: they
    are identifiers, a weekly sum of them is not a quantity, and the raw
    report's extra columns are not modelled as fields of a row.
- Ranking.Sort: pandas' default sort is not stable, so the order among
  rows with equal commitment is not specified. The contracts state nothing
  about it, and any tie order satisfies them.
- The `KeyError` pandas raises when `df_totals` lacks `weekEndingDate` or
  one of the measure columns a view selects (esr_views.py:32, 148, 278).
  Rows always carry a date and all eight measures, so only a missing `MY`
  column is modelled.

=== FILE: aggregation.dfy ===
/** `groupby(["MY", "weekEndingDate"]).sum()` followed by
    `sort_values(["MY", "weekEndingDate"])`: one row per distinct
    (marketing year, date) pair, in ascending (MY, date) order, holding the
    column sums of the input rows with that pair. */
module Aggregation {
  import opened EsrData

  datatype Key = Key(my: int, date: int)

  /** Lexicographic (MY, date) order. */
  predicate KeyLess(a: Key, b: Key)
  {
    a.my < b.my || (a.my == b.my && a.date < b.date)
  }

  function KeyOf(r: EsrRow): Key
  {
    Key(r.my, r.date)
  }

  /** One row of the grouped frame. */
  datatype WeeklyTotal = WeeklyTotal(key: Key, m: Measures)

  /** Strictly ascending keys: sorted, and no key twice. */
  predicate StrictlySorted(w: seq<WeeklyTotal>)
  {
    forall i, j :: 0 <= i < j < |w| ==> KeyLess(w[i].key, w[j].key)
  }

  function KeysOf(w: seq<WeeklyTotal>): set<Key>
  {
    set i | 0 <= i < |w| :: w[i].key
  }

  /** The distinct (MY, date) pairs of the input. */
  function RowKeys(rows: seq<EsrRow>): set<Key>
  {
    set i | 0 <= i < |rows| :: KeyOf(rows[i])
  }

  /** The column sums of a grouped frame. */
  function Total(w: seq<WeeklyTotal>): Measures
  {
    if |w| == 0 then Zero else Plus(w[0].m, Total(w[1..]))
  }

  /** The sums recorded for `k`; zero when no row has that key. */
  function Lookup(w: seq<WeeklyTotal>, k: Key): Measures
  {
    if |w| == 0 then Zero else if w[0].key == k then w[0].m else Lookup(w[1..], k)
  }

  /** Reference definition of a group: the column sums of exactly those
      input rows whose (MY, date) pair is `k`. */
  function SumFor(rows: seq<EsrRow>, k: Key): Measures
  {
    if |rows| == 0 then Zero
    else
      var s := SumFor(rows[..|rows| - 1], k);
      if KeyOf(rows[|rows| - 1]) == k then Plus(s, rows[|rows| - 1].m) else s
  }

  lemma KeysOfCons(x: WeeklyTotal, w: seq<WeeklyTotal>)
    ensures KeysOf([x] + w) == {x.key} + KeysOf(w)
  {
    var c := [x] + w;
    forall key | key in KeysOf(c) ensures key in {x.key} + KeysOf(w) {
      var j :| 0 <= j < |c| && c[j].key == key;
      if j > 0 {
        assert c[j] == w[j - 1];
      }
    }
    forall key | key in KeysOf(w) ensures key in KeysOf(c) {
      var j :| 0 <= j < |w| && w[j].key == key;
      assert c[j + 1] == w[j];
    }
    assert c[0] == x;
  }

  lemma {:induction false} LookupAbsent(w: seq<WeeklyTotal>, k: Key)
    requires k !in KeysOf(w)
    ensures Lookup(w, k) == Zero
  {
    if |w| > 0 {
      assert w[0].key in KeysOf(w);
      KeysOfCons(w[0], w[1..]);
      assert [w[0]] + w[1..] == w;
      LookupAbsent(w[1..], k);
    }
  }

  /** A row whose key precedes every key of a strictly sorted frame can be
      put in front of it. */
  lemma ConsStrictlySorted(x: WeeklyTotal, t: seq<WeeklyTotal>)
    requires StrictlySorted(t)
    requires forall j :: 0 <= j < |t| ==> KeyLess(x.key, t[j].key)
    ensures StrictlySorted([x] + t)
  {
    var c := [x] + t;
    forall i, j | 0 <= i < j < |c| ensures KeyLess(c[i].key, c[j].key) {
      assert c[j] == t[j - 1];
      if i > 0 {
        assert c[i] == t[i - 1];
      }
    }
  }

  /** A key before the first key of a strictly sorted frame is before all
      of them. */
  lemma BeforeHead(k: Key, acc: seq<WeeklyTotal>)
    requires StrictlySorted(acc) && |acc| > 0
    requires KeyLess(k, acc[0].key)
    ensures forall j :: 0 <= j < |acc| ==> KeyLess(k, acc[j].key)
  {
  }

  /** When `k` comes after the first key, the head may precede every row of
      the upsert into the rest. */
  lemma HeadBeforeUpsert(acc: seq<WeeklyTotal>, k: Key, tail: seq<WeeklyTotal>)
    requires StrictlySorted(acc) && |acc| > 0
    requires !KeyLess(k, acc[0].key) && k != acc[0].key
    requires KeysOf(tail) == KeysOf(acc[1..]) + {k}
    ensures forall j :: 0 <= j < |tail| ==> KeyLess(acc[0].key, tail[j].key)
  {
    forall j | 0 <= j < |tail| ensures KeyLess(acc[0].key, tail[j].key) {
      assert tail[j].key in KeysOf(tail);
      if tail[j].key != k {
        var a :| 0 <= a < |acc[1..]| && acc[1..][a].key == tail[j].key;
        assert acc[1..][a] == acc[a + 1];
      }
    }
  }

  /** Adds measures `v` to group `k`: into the existing row when there is
      one, otherwise as a new row at its sorted position. */
  function Upsert(acc: seq<WeeklyTotal>, k: Key, v: Measures): (r: seq<WeeklyTotal>)
    requires StrictlySorted(acc)
    ensures StrictlySorted(r)
    ensures KeysOf(r) == KeysOf(acc) + {k}
    decreases |acc|
  {
    if |acc| == 0 then
      KeysOfCons(WeeklyTotal(k, v), acc);
      [WeeklyTotal(k, v)] + acc
    else if KeyLess(k, acc[0].key) then
      BeforeHead(k, acc);
      KeysOfCons(WeeklyTotal(k, v), acc);
      ConsStrictlySorted(WeeklyTotal(k, v), acc);
      [WeeklyTotal(k, v)] + acc
    else if k == acc[0].key then
      KeysOfCons(acc[0], acc[1..]);
      assert [acc[0]] + acc[1..] == acc;
      KeysOfCons(WeeklyTotal(k, Plus(acc[0].m, v)), acc[1..]);
      ConsStrictlySorted(WeeklyTotal(k, Plus(acc[0].m, v)), acc[1..]);
      [WeeklyTotal(k, Plus(acc[0].m, v))] + acc[1..]
    else
      var tail := Upsert(acc[1..], k, v);
      HeadBeforeUpsert(acc, k, tail);
      KeysOfCons(acc[0], acc[1..]);
      assert [acc[0]] + acc[1..] == acc;
      KeysOfCons(acc[0], tail);
      ConsStrictlySorted(acc[0], tail);
      [acc[0]] + tail
  }

  /** Upsert adds `v` to the frame's column totals. */
  lemma {:induction false} UpsertTotal(acc: seq<WeeklyTotal>, k: Key, v: Measures)
    requires StrictlySorted(acc)
    ensures Total(Upsert(acc, k, v)) == Plus(Total(acc), v)
    decreases |acc|
  {
    var r := Upsert(acc, k, v);
    if |acc| == 0 {
      assert r[1..] == [];
      PlusZero(v);
    } else if KeyLess(k, acc[0].key) {
      assert r[1..] == acc;
      PlusCommutes(v, Total(acc));
    } else if k == acc[0].key {
      assert r[1..] == acc[1..];
      PlusAssociates(acc[0].m, v, Total(acc[1..]));
      PlusCommutes(v, Total(acc[1..]));
      PlusAssociates(acc[0].m, Total(acc[1..]), v);
    } else {
      UpsertTotal(acc[1..], k, v);
      assert r[1..] == Upsert(acc[1..], k, v);
      PlusAssociates(acc[0].m, Total(acc[1..]), v);
    }
  }

  /** Upsert adds `v` to group `k` and leaves every other group as it was. */
  lemma {:induction false} UpsertLookup(acc: seq<WeeklyTotal>, k: Key, v: Measures, k': Key)
    requires StrictlySorted(acc)
    ensures Lookup(Upsert(acc, k, v), k') == if k' == k then Plus(Lookup(acc, k'), v) else Lookup(acc, k')
    decreases |acc|
  {
    if |acc| == 0 {
    } else if KeyLess(k, acc[0].key) {
      assert forall j :: 0 <= j < |acc| ==> KeyLess(k, acc[j].key);
      assert k !in KeysOf(acc);
      LookupAbsent(acc, k);
      var r := Upsert(acc, k, v);
      assert r[1..] == acc;
    } else if k == acc[0].key {
      var r := Upsert(acc, k, v);
      assert r[1..] == acc[1..];
    } else {
      UpsertLookup(acc[1..], k, v, k');
      var r := Upsert(acc, k, v);
      assert r[1..] == Upsert(acc[1..], k, v);
    }
  }

  /** The grouped, sorted frame. */
  function Aggregate(rows: seq<EsrRow>): (w: seq<WeeklyTotal>)
    ensures StrictlySorted(w)
    ensures KeysOf(w) == RowKeys(rows)
  {
    if |rows| == 0 then []
    else
      var p := rows[..|rows| - 1];
      var last := rows[|rows| - 1];
      assert RowKeys(rows) == RowKeys(p) + {KeyOf(last)} by {
        assert forall i :: 0 <= i < |p| ==> rows[i] == p[i];
      }
      Upsert(Aggregate(p), KeyOf(last), last.m)
  }

  /** Grouping preserves the grand total of every column. */
  lemma {:induction false} AggregatePreservesTotal(rows: seq<EsrRow>)
    ensures Total(Aggregate(rows)) == SumRows(rows)
  {
    if |rows| > 0 {
      var p := rows[..|rows| - 1];
      var last := rows[|rows| - 1];
      AggregatePreservesTotal(p);
      UpsertTotal(Aggregate(p), KeyOf(last), last.m);
    }
  }

  /** The group recorded for any key holds the sums of the input rows with
      that key (zero for a key no row has). */
  lemma {:induction false} AggregateGroupSums(rows: seq<EsrRow>, k: Key)
    ensures Lookup(Aggregate(rows), k) == SumFor(rows, k)
  {
    if |rows| > 0 {
      var p := rows[..|rows| - 1];
      var last := rows[|rows| - 1];
      AggregateGroupSums(p, k);
      UpsertLookup(Aggregate(p), KeyOf(last), last.m, k);
    } else {
    }
  }

  /** In a strictly sorted frame each row holds the lookup of its own key. */
  lemma {:induction false} LookupAt(w: seq<WeeklyTotal>, i: int)
    requires StrictlySorted(w)
    requires 0 <= i < |w|
    ensures Lookup(w, w[i].key) == w[i].m
  {
    if i > 0 {
      assert KeyLess(w[0].key, w[i].key);
      LookupAt(w[1..], i - 1);
    }
  }

  /** Each row of the grouped frame holds the sums of its group. */
  lemma AggregateRowIsGroupSum(rows: seq<EsrRow>, i: int)
    requires 0 <= i < |Aggregate(rows)|
    ensures Aggregate(rows)[i].m == SumFor(rows, Aggregate(rows)[i].key)
  {
    LookupAt(Aggregate(rows), i);
    AggregateGroupSums(rows, Aggregate(rows)[i].key);
  }

  /** A strictly sorted frame has as many rows as distinct keys. */
  lemma {:induction false} SortedKeysCount(w: seq<WeeklyTotal>)
    requires StrictlySorted(w)
    ensures |KeysOf(w)| == |w|
  {
    if |w| > 0 {
      SortedKeysCount(w[1..]);
      assert KeysOf(w) == {w[0].key} + KeysOf(w[1..]);
      assert w[0].key !in KeysOf(w[1..]) by {
        forall j | 0 <= j < |w[1..]| ensures w[1..][j].key != w[0].key {
          assert KeyLess(w[0].key, w[j + 1].key);
        }
      }
    }
  }

  /** Exactly one row per distinct (MY, date) pair of the input. */
  lemma OneRowPerPair(rows: seq<EsrRow>)
    ensures |Aggregate(rows)| == |RowKeys(rows)|
    ensures forall k :: k in RowKeys(rows) <==> exists i :: 0 <= i < |Aggregate(rows)| && Aggregate(rows)[i].key == k
  {
    SortedKeysCount(Aggregate(rows));
  }
}

=== FILE: arith.dfy ===
/** The integer minimum and maximum the views take with Python's `min` and
    `max`. */
module Arith {

  function Min(a: int, b: int): int { if a <= b then a else b }

  function Max(a: int, b: int): int { if a >= b then a else b }
}

=== FILE: current_year.dfy ===
/** The current marketing year (CMY): the MY of the rows at the latest
    report date, chosen as
    `weekly.loc[weekly["weekEndingDate"] == latest_date, "MY"].mode().iloc[0]`. */
module CurrentYear {
  import opened EsrData
  import opened Aggregation
  import opened MarketingWeeks

  /** `weekly["weekEndingDate"].max()` */
  function LatestDate(r: seq<WeekRow>): (d: int)
    requires |r| > 0
    ensures exists i :: 0 <= i < |r| && r[i].date == d
    ensures forall i :: 0 <= i < |r| ==> r[i].date <= d
  {
    if |r| == 1 then r[0].date
    else
      var rest := LatestDate(r[..|r| - 1]);
      if rest >= r[|r| - 1].date then rest else r[|r| - 1].date
  }

  /** `weekly.loc[weekly["weekEndingDate"] == d, "MY"]`, in frame order. */
  function MysAt(r: seq<WeekRow>, d: int): (ys: seq<int>)
    ensures forall y :: y in ys <==> exists i :: 0 <= i < |r| && r[i].date == d && r[i].my == y
    ensures (exists i :: 0 <= i < |r| && r[i].date == d) ==> |ys| > 0
  {
    if |r| == 0 then []
    else
      var p := r[..|r| - 1];
      var rest := MysAt(p, d);
      assert forall i :: 0 <= i < |p| ==> p[i] == r[i];
      rest + (if r[|r| - 1].date == d then [r[|r| - 1].my] else [])
  }

  /** The best of `cands` by frequency in `xs`, ties going to the smaller
      value. */
  function BestOf(xs: seq<int>, cands: seq<int>): (b: int)
    requires |cands| > 0
    ensures b in cands
    ensures forall x :: x in cands ==>
      multiset(xs)[x] < multiset(xs)[b] || (multiset(xs)[x] == multiset(xs)[b] && b <= x)
  {
    if |cands| == 1 then cands[0]
    else
      var b := BestOf(xs, cands[1..]);
      assert forall x :: x in cands ==> x == cands[0] || x in cands[1..];
      var n0 := multiset(xs)[cands[0]];
      var nb := multiset(xs)[b];
      if n0 > nb || (n0 == nb && cands[0] < b) then cands[0] else b
  }

  /** `xs.mode().iloc[0]`: pandas' `mode` lists every most frequent value in
      ascending order, so its first entry is the smallest most frequent value. */
  function ModeFirst(xs: seq<int>): (r: int)
    requires |xs| > 0
    ensures r in xs
    ensures forall x :: x in xs ==> multiset(xs)[x] <= multiset(xs)[r]
    ensures forall x :: x in xs && multiset(xs)[x] == multiset(xs)[r] ==> r <= x
  {
    BestOf(xs, xs)
  }

  /** The CMY of a numbered frame: an MY that has a row at the latest date. */
  function CurrentMy(r: seq<WeekRow>): (c: int)
    requires |r| > 0
    ensures exists i :: 0 <= i < |r| && r[i].date == LatestDate(r) && r[i].my == c
  {
    var ys := MysAt(r, LatestDate(r));
    assert r[0].date <= LatestDate(r);
    ModeFirst(ys)
  }

  predicate Distinct(xs: seq<int>)
  {
    forall i, j :: 0 <= i < j < |xs| ==> xs[i] != xs[j]
  }

  /** No two rows share both MY and date. */
  predicate UniquePairs(r: seq<WeekRow>)
  {
    forall i, j :: 0 <= i < j < |r| ==> r[i].my != r[j].my || r[i].date != r[j].date
  }

  lemma {:induction false} DistinctCountsOne(xs: seq<int>, x: int)
    requires Distinct(xs)
    requires x in xs
    ensures multiset(xs)[x] == 1
  {
    var p := xs[..|xs| - 1];
    var last := xs[|xs| - 1];
    assert xs == p + [last];
    if x != last {
      DistinctCountsOne(p, x);
    }
  }

  /** When no value repeats, every value is a mode, and `mode().iloc[0]`
      is the minimum. */
  lemma ModeOfDistinctIsMin(xs: seq<int>)
    requires |xs| > 0
    requires Distinct(xs)
    ensures forall x :: x in xs ==> ModeFirst(xs) <= x
  {
    forall x | x in xs ensures ModeFirst(xs) <= x {
      DistinctCountsOne(xs, x);
      DistinctCountsOne(xs, ModeFirst(xs));
    }
  }

  lemma {:induction false} MysAtDistinct(r: seq<WeekRow>, d: int)
    requires UniquePairs(r)
    ensures Distinct(MysAt(r, d))
  {
    if |r| > 0 {
      var p := r[..|r| - 1];
      MysAtDistinct(p, d);
      var x := r[|r| - 1];
      var s := MysAt(p, d);
      if x.date == d {
        forall a | a in s ensures a != x.my {
          var k :| 0 <= k < |p| && p[k].date == d && p[k].my == a;
          assert p[k] == r[k];
        }
        forall i | 0 <= i < |s| ensures s[i] != x.my {
          assert s[i] in s;
        }
        assert MysAt(r, d) == s + [x.my];
      }
    }
  }

  lemma NumberedPairsUnique(w: seq<WeeklyTotal>)
    requires StrictlySorted(w)
    ensures UniquePairs(Number(w))
  {
    var r := Number(w);
    forall i, j | 0 <= i < j < |r| ensures r[i].my != r[j].my || r[i].date != r[j].date {
      assert KeyLess(w[i].key, w[j].key);
    }
  }

  /** In the grouped frame each MY occurs at most once at the latest date,
      so the CMY is the smallest MY that has a row at that date. */
  lemma CurrentMyIsSmallestAtLatest(w: seq<WeeklyTotal>)
    requires StrictlySorted(w)
    requires |w| > 0
    ensures forall i :: 0 <= i < |w| && Number(w)[i].date == LatestDate(Number(w)) ==>
      CurrentMy(Number(w)) <= Number(w)[i].my
  {
    var r := Number(w);
    var latest := LatestDate(r);
    var ys := MysAt(r, latest);
    NumberedPairsUnique(w);
    MysAtDistinct(r, latest);
    assert r[0].date <= latest;
    ModeOfDistinctIsMin(ys);
    assert CurrentMy(r) == ModeFirst(ys);
    forall i | 0 <= i < |w| && r[i].date == latest ensures CurrentMy(r) <= r[i].my {
      assert r[i].my in ys;
    }
  }

  /** The latest date of the grouped frame is the latest input date. */
  lemma LatestDateOfInput(rows: seq<EsrRow>)
    requires |rows| > 0
    ensures LatestDate(Number(Aggregate(rows))) == MaxDate(rows).value
  {
    var w := Aggregate(rows);
    assert KeyOf(rows[0]) in RowKeys(rows);
    var r := Number(w);
    var latest := LatestDate(r);
    var top := MaxDate(rows).value;
    // the latest grouped date is the date of some input row, so it is at most `top`
    var i :| 0 <= i < |r| && r[i].date == latest;
    assert w[i].key in RowKeys(rows);
    var j0 :| 0 <= j0 < |rows| && KeyOf(rows[j0]) == w[i].key;
    assert latest <= top;
    // the latest input date has a grouped row, so it is at most `latest`
    var jt :| 0 <= jt < |rows| && rows[jt].date == top;
    assert KeyOf(rows[jt]) in KeysOf(w);
    var it :| 0 <= it < |w| && w[it].key == KeyOf(rows[jt]);
    assert r[it].date == top;
    assert top <= latest;
  }

  /** Some input row at the latest date carries the CMY of a frame
      covering exactly the input's (MY, date) pairs. */
  lemma {:induction false} CmyHasInputRow(rows: seq<EsrRow>, w: seq<WeeklyTotal>, top: int)
    requires |w| > 0 && KeysOf(w) == RowKeys(rows)
    requires LatestDate(Number(w)) == top
    ensures exists j :: 0 <= j < |rows| && rows[j].date == top && rows[j].my == CurrentMy(Number(w))
  {
    var r := Number(w);
    var ic :| 0 <= ic < |r| && r[ic].date == top && r[ic].my == CurrentMy(r);
    assert w[ic].key in KeysOf(w);
    var jc :| 0 <= jc < |rows| && KeyOf(rows[jc]) == w[ic].key;
  }

  /** No input row at the latest date has an MY below the CMY of a
      strictly sorted frame covering exactly the input's pairs. */
  lemma {:induction false} CmyIsLeastAtTop(rows: seq<EsrRow>, w: seq<WeeklyTotal>, top: int)
    requires |w| > 0 && StrictlySorted(w) && KeysOf(w) == RowKeys(rows)
    requires LatestDate(Number(w)) == top
    ensures forall j :: 0 <= j < |rows| && rows[j].date == top ==> CurrentMy(Number(w)) <= rows[j].my
  {
    var r := Number(w);
    CurrentMyIsSmallestAtLatest(w);
    forall j | 0 <= j < |rows| && rows[j].date == top ensures CurrentMy(r) <= rows[j].my {
      assert KeyOf(rows[j]) in RowKeys(rows);
      var k :| 0 <= k < |w| && w[k].key == KeyOf(rows[j]);
      assert r[k].date == top;
    }
  }

  /** In terms of the input rows: some input row at the latest date has
      MY == CMY, and no input row at that date has a smaller MY. */
  lemma CurrentMyOfInput(rows: seq<EsrRow>)
    requires |rows| > 0
    ensures exists j :: (0 <= j < |rows| && rows[j].date == MaxDate(rows).value &&
      rows[j].my == CurrentMy(Number(Aggregate(rows))))
    ensures forall j :: 0 <= j < |rows| && rows[j].date == MaxDate(rows).value ==>
      CurrentMy(Number(Aggregate(rows))) <= rows[j].my
  {
    LatestDateOfInput(rows);
    var w := Aggregate(rows);
    assert KeyOf(rows[0]) in RowKeys(rows);
    CmyHasInputRow(rows, w, MaxDate(rows).value);
    CmyIsLeastAtTop(rows, w, MaxDate(rows).value);
  }
}

=== FILE: esr_data.dfy ===
/** The rows the dashboard works on: one export-sales report line per
    (marketing year, week-ending date, destination country), with the eight
    numeric columns the views read. Dates are day numbers; only their order
    and equality matter. */
module EsrData {

  datatype Option<+T> = None | Some(value: T)

  /** The failures the views raise instead of returning a figure or table. */
  datatype Error =
    | MissingMyColumn           // ValueError: the frame has no `MY` column
    | UnknownColumn(name: string) // `value_col` is not a measure column (see ColumnNamed)
    | NoRows                    // IndexError: `mode().iloc[0]` of an empty frame

  datatype Result<+T> = Ok(value: T) | Err(error: Error)

  /** The numeric columns of a report row. */
  datatype Column =
    | WeeklyExports
    | GrossNewSales
    | CurrentMYNetSales
    | NextMYNetSales
    | CurrentMYTotalCommitment
    | AccumulatedExports
    | OutstandingSales
    | NextMYOutstandingSales

  datatype Measures = Measures(
    weeklyExports: int,
    grossNewSales: int,
    currentMYNetSales: int,
    nextMYNetSales: int,
    currentMYTotalCommitment: int,
    accumulatedExports: int,
    outstandingSales: int,
    nextMYOutstandingSales: int)

  /** One row of `df_totals`. `MY` is the marketing year the download loop
      stamped on it; `country` is the description the country-code lookup
      found for `countryCode`, if any. */
  datatype EsrRow = EsrRow(my: int, date: int, countryCode: int, country: Option<string>, m: Measures)

  /** A frame of report rows; `hasMyColumn` records whether the `MY` column
      exists at all (when it does not, the rows' `my` fields mean nothing). */
  datatype EsrTable = EsrTable(hasMyColumn: bool, rows: seq<EsrRow>)

  function Get(m: Measures, c: Column): int
  {
    match c
    case WeeklyExports => m.weeklyExports
    case GrossNewSales => m.grossNewSales
    case CurrentMYNetSales => m.currentMYNetSales
    case NextMYNetSales => m.nextMYNetSales
    case CurrentMYTotalCommitment => m.currentMYTotalCommitment
    case AccumulatedExports => m.accumulatedExports
    case OutstandingSales => m.outstandingSales
    case NextMYOutstandingSales => m.nextMYOutstandingSales
  }

  /** The column's name in the frame. */
  function ColumnName(c: Column): string
  {
    match c
    case WeeklyExports => "weeklyExports"
    case GrossNewSales => "grossNewSales"
    case CurrentMYNetSales => "currentMYNetSales"
    case NextMYNetSales => "nextMYNetSales"
    case CurrentMYTotalCommitment => "currentMYTotalCommitment"
    case AccumulatedExports => "accumulatedExports"
    case OutstandingSales => "outstandingSales"
    case NextMYOutstandingSales => "nextMYOutstandingSales"
  }

  /** Column selection by name, `df[name]`, restricted to the eight
      measure columns: the column with that name, or None when no measure
      column carries it. */
  function ColumnNamed(name: string): (r: Option<Column>)
    ensures r.Some? ==> ColumnName(r.value) == name
    ensures r.None? ==> forall c: Column :: ColumnName(c) != name
  {
    if name == "weeklyExports" then Some(WeeklyExports)
    else if name == "grossNewSales" then Some(GrossNewSales)
    else if name == "currentMYNetSales" then Some(CurrentMYNetSales)
    else if name == "nextMYNetSales" then Some(NextMYNetSales)
    else if name == "currentMYTotalCommitment" then Some(CurrentMYTotalCommitment)
    else if name == "accumulatedExports" then Some(AccumulatedExports)
    else if name == "outstandingSales" then Some(OutstandingSales)
    else if name == "nextMYOutstandingSales" then Some(NextMYOutstandingSales)
    else None
  }

  /** Every column is found again by its own name. */
  lemma ColumnNameRoundTrip(c: Column)
    ensures ColumnNamed(ColumnName(c)) == Some(c)
  {
  }

  const Zero: Measures := Measures(0, 0, 0, 0, 0, 0, 0, 0)

  /** Column-wise addition, the step of a `sum()` over rows. */
  function Plus(a: Measures, b: Measures): Measures
  {
    Measures(
      a.weeklyExports + b.weeklyExports,
      a.grossNewSales + b.grossNewSales,
      a.currentMYNetSales + b.currentMYNetSales,
      a.nextMYNetSales + b.nextMYNetSales,
      a.currentMYTotalCommitment + b.currentMYTotalCommitment,
      a.accumulatedExports + b.accumulatedExports,
      a.outstandingSales + b.outstandingSales,
      a.nextMYOutstandingSales + b.nextMYOutstandingSales)
  }

  lemma PlusZero(a: Measures)
    ensures Plus(a, Zero) == a && Plus(Zero, a) == a
  {
  }

  lemma PlusCommutes(a: Measures, b: Measures)
    ensures Plus(a, b) == Plus(b, a)
  {
  }

  lemma PlusAssociates(a: Measures, b: Measures, c: Measures)
    ensures Plus(Plus(a, b), c) == Plus(a, Plus(b, c))
  {
  }

  /** The column sums of a sequence of rows. */
  function SumRows(rows: seq<EsrRow>): Measures
  {
    if |rows| == 0 then Zero else Plus(SumRows(rows[..|rows| - 1]), rows[|rows| - 1].m)
  }

  /** The latest date among the rows, `df["weekEndingDate"].max()`; None
      (pandas' NaT) for no rows. */
  function MaxDate(rows: seq<EsrRow>): (d: Option<int>)
    ensures d.None? <==> |rows| == 0
    ensures d.Some? ==> exists i :: 0 <= i < |rows| && rows[i].date == d.value
    ensures d.Some? ==> forall i :: 0 <= i < |rows| ==> rows[i].date <= d.value
  {
    if |rows| == 0 then None
    else
      var rest := MaxDate(rows[..|rows| - 1]);
      var last := rows[|rows| - 1].date;
      if rest.Some? && rest.value >= last then rest else Some(last)
  }
}

=== FILE: last_week.dfy ===
/** The single-week snapshot (`build_last_week`) and the headline numbers
    computed from it (`compute_kpis`, `weekly_sales_table`,
    `total_exports_table`). */
module LastWeek {
  import opened EsrData

  /** A row of `last_week`: the report columns of one destination at the
      selected date, the derived `Cancel` column and the cleaned country
      description. */
  datatype SnapshotRow = SnapshotRow(date: int, countryCode: int, country: Option<string>, m: Measures, cancel: int)

  const ChinaLong: string := "CHINA, PEOPLES REPUBLIC OF"
  const KoreaLong: string := "KOREA, REPUBLIC OF"

  /** The two country descriptions the snapshot shortens; every other
      description (and a missing one) is kept. */
  function CleanCountry(name: Option<string>): Option<string>
  {
    if name == Some(ChinaLong) then Some("CHINA")
    else if name == Some(KoreaLong) then Some("S. KOREA")
    else name
  }

  /** Cleaning rewrites exactly the two long names, to "CHINA" and
      "S. KOREA"; it never invents or drops a description; and cleaning
      again changes nothing, since the short names are not rewritten. */
  lemma CleanCountryFacts(name: Option<string>)
    ensures CleanCountry(name) != name <==> name == Some(ChinaLong) || name == Some(KoreaLong)
    ensures name == Some(ChinaLong) ==> CleanCountry(name) == Some("CHINA")
    ensures name == Some(KoreaLong) ==> CleanCountry(name) == Some("S. KOREA")
    ensures CleanCountry(name).None? <==> name.None?
    ensures CleanCountry(CleanCountry(name)) == CleanCountry(name)
  {
    assert "CHINA" != ChinaLong && "CHINA" != KoreaLong;
    assert "S. KOREA" != ChinaLong && "S. KOREA" != KoreaLong;
  }

  /** The week the snapshot shows: the selected date, or by default the
      latest date in the data (None when there is no data). */
  function SnapshotDate(rows: seq<EsrRow>, selected: Option<int>): Option<int>
  {
    if selected.Some? then selected else MaxDate(rows)
  }

  /** `df[df["weekEndingDate"] == d]`: the rows at date d, each as often as
      in the frame, and no other rows. */
  function AtDate(rows: seq<EsrRow>, d: int): (s: seq<EsrRow>)
    ensures forall x :: x in s <==> x in rows && x.date == d
    ensures forall x :: multiset(s)[x] == if x.date == d then multiset(rows)[x] else 0
  {
    if |rows| == 0 then []
    else
      var p := rows[..|rows| - 1];
      var last := rows[|rows| - 1];
      assert rows == p + [last];
      var s := AtDate(p, d) + (if last.date == d then [last] else []);
      assert multiset(s) == multiset(AtDate(p, d)) + (if last.date == d then multiset{last} else multiset{});
      s
  }

  /** The positions of the frame's rows at date d, ascending: an index
      description of the filter, independent of how it is computed. */
  function DatePositions(rows: seq<EsrRow>, d: int): (idx: seq<int>)
    ensures forall k :: 0 <= k < |idx| ==> 0 <= idx[k] < |rows| && rows[idx[k]].date == d
    ensures forall k, l :: 0 <= k < l < |idx| ==> idx[k] < idx[l]
    ensures forall j :: 0 <= j < |rows| && rows[j].date == d ==> j in idx
  {
    if |rows| == 0 then []
    else
      var p := rows[..|rows| - 1];
      var rest := DatePositions(p, d);
      assert forall k :: 0 <= k < |rest| ==> rows[rest[k]] == p[rest[k]];
      rest + (if rows[|rows| - 1].date == d then [|rows| - 1] else [])
  }

  /** The filter keeps frame order: its k-th row is the frame row at the
      k-th position with date d. */
  lemma {:induction false} AtDateInFrameOrder(rows: seq<EsrRow>, d: int)
    ensures |AtDate(rows, d)| == |DatePositions(rows, d)|
    ensures forall k :: 0 <= k < |AtDate(rows, d)| ==> AtDate(rows, d)[k] == rows[DatePositions(rows, d)[k]]
  {
    if |rows| > 0 {
      var n := |rows| - 1;
      AtDateInFrameOrder(rows[..n], d);
      var keep := rows[n].date == d;
      assert AtDate(rows, d) == AtDate(rows[..n], d) + (if keep then [rows[n]] else []);
      assert DatePositions(rows, d) == DatePositions(rows[..n], d) + (if keep then [n] else []);
      PositionsStep(rows, AtDate(rows[..n], d), DatePositions(rows[..n], d), keep);
    }
  }

  /** One step of `AtDateInFrameOrder`: appending the last row to the
      filtered prefix and its index to the prefix's positions keeps them
      in step. */
  lemma PositionsStep(rows: seq<EsrRow>, a: seq<EsrRow>, idx: seq<int>, keep: bool)
    requires |rows| > 0 && |a| == |idx|
    requires forall k :: 0 <= k < |idx| ==> 0 <= idx[k] < |rows| - 1
    requires forall k :: 0 <= k < |a| ==> a[k] == rows[..|rows| - 1][idx[k]]
    ensures var s := a + (if keep then [rows[|rows| - 1]] else []);
      var t := idx + (if keep then [|rows| - 1] else []);
      |s| == |t| && forall k :: 0 <= k < |s| ==> 0 <= t[k] < |rows| && s[k] == rows[t[k]]
  {
  }

  /** One input row as it appears in the snapshot. */
  function Snapshot(row: EsrRow): SnapshotRow
  {
    SnapshotRow(row.date, row.countryCode, CleanCountry(row.country), row.m,
                row.m.grossNewSales - row.m.currentMYNetSales)
  }

  /** `build_last_week`: the rows of the snapshot week, each with `Cancel`
      added and its country description cleaned. */
  function BuildLastWeek(rows: seq<EsrRow>, selected: Option<int>): (r: seq<SnapshotRow>)
    ensures SnapshotDate(rows, selected).None? ==> r == []
    ensures SnapshotDate(rows, selected).Some? ==>
      var d := SnapshotDate(rows, selected).value;
      && |r| == |AtDate(rows, d)|
      && forall i :: 0 <= i < |r| ==>
        && r[i].date == d
        && r[i].countryCode == AtDate(rows, d)[i].countryCode
        && r[i].m == AtDate(rows, d)[i].m
        && r[i].country == CleanCountry(AtDate(rows, d)[i].country)
    ensures forall i :: 0 <= i < |r| ==> r[i].cancel == r[i].m.grossNewSales - r[i].m.currentMYNetSales
  {
    match SnapshotDate(rows, selected)
    case None => []
    case Some(d) =>
      var s := AtDate(rows, d);
      assert forall i :: 0 <= i < |s| ==> s[i] in s;
      seq(|s|, i requires 0 <= i < |s| => Snapshot(s[i]))
  }

  /** The snapshot holds one row per frame row at the snapshot date, in
      frame order: its i-th row is built from the frame row at the i-th
      position with that date. */
  lemma SnapshotInFrameOrder(rows: seq<EsrRow>, selected: Option<int>)
    ensures SnapshotDate(rows, selected).Some? ==>
      var d := SnapshotDate(rows, selected).value;
      var idx := DatePositions(rows, d);
      && |BuildLastWeek(rows, selected)| == |idx|
      && forall i :: 0 <= i < |idx| ==> BuildLastWeek(rows, selected)[i] == Snapshot(rows[idx[i]])
  {
    if SnapshotDate(rows, selected).Some? {
      AtDateInFrameOrder(rows, SnapshotDate(rows, selected).value);
    }
  }

  /** The sum of one report column over the snapshot. */
  function SnapshotSum(lw: seq<SnapshotRow>, c: Column): int
  {
    if |lw| == 0 then 0 else SnapshotSum(lw[..|lw| - 1], c) + Get(lw[|lw| - 1].m, c)
  }

  /** The sum of the `Cancel` column. */
  function CancelSum(lw: seq<SnapshotRow>): int
  {
    if |lw| == 0 then 0 else CancelSum(lw[..|lw| - 1]) + lw[|lw| - 1].cancel
  }

  /** The dictionary `compute_kpis` returns. */
  datatype Kpis = Kpis(
    grossNewSales: int,
    netNewSales: int,
    cancel: int,
    shipments: int,
    nmyNetNewSales: int,
    cumExports: int,
    outstanding: int,
    commitment: int,
    nmyOutstanding: int)

  const NoKpis: Kpis := Kpis(0, 0, 0, 0, 0, 0, 0, 0, 0)

  /** Adds one snapshot row into running KPI totals. */
  function AddRow(k: Kpis, x: SnapshotRow): Kpis
  {
    Kpis(
      k.grossNewSales + x.m.grossNewSales,
      k.netNewSales + x.m.currentMYNetSales,
      k.cancel + x.cancel,
      k.shipments + x.m.weeklyExports,
      k.nmyNetNewSales + x.m.nextMYNetSales,
      k.cumExports + x.m.accumulatedExports,
      k.outstanding + x.m.outstandingSales,
      k.commitment + x.m.currentMYTotalCommitment,
      k.nmyOutstanding + x.m.nextMYOutstandingSales)
  }

  /** `compute_kpis`: every headline number is the sum of its column. */
  function ComputeKpis(lw: seq<SnapshotRow>): (k: Kpis)
    ensures k.grossNewSales == SnapshotSum(lw, GrossNewSales)
    ensures k.netNewSales == SnapshotSum(lw, CurrentMYNetSales)
    ensures k.cancel == CancelSum(lw)
    ensures k.shipments == SnapshotSum(lw, WeeklyExports)
    ensures k.nmyNetNewSales == SnapshotSum(lw, NextMYNetSales)
    ensures k.cumExports == SnapshotSum(lw, AccumulatedExports)
    ensures k.outstanding == SnapshotSum(lw, OutstandingSales)
    ensures k.commitment == SnapshotSum(lw, CurrentMYTotalCommitment)
    ensures k.nmyOutstanding == SnapshotSum(lw, NextMYOutstandingSales)
  {
    if |lw| == 0 then NoKpis else AddRow(ComputeKpis(lw[..|lw| - 1]), lw[|lw| - 1])
  }

  /** When every row's `Cancel` is gross minus net sales, so is the sum:
      the `cancel` KPI is the `gross_new_sales` KPI minus the
      `net_new_sales` KPI. */
  lemma {:induction false} CancelKpiIsGrossMinusNet(lw: seq<SnapshotRow>)
    requires forall i :: 0 <= i < |lw| ==> lw[i].cancel == lw[i].m.grossNewSales - lw[i].m.currentMYNetSales
    ensures ComputeKpis(lw).cancel == ComputeKpis(lw).grossNewSales - ComputeKpis(lw).netNewSales
  {
    if |lw| > 0 {
      CancelKpiIsGrossMinusNet(lw[..|lw| - 1]);
    }
  }

  /** For every snapshot `build_last_week` produces, cancellations equal
      gross new sales minus net new sales. */
  lemma SnapshotCancelIdentity(rows: seq<EsrRow>, selected: Option<int>)
    ensures var k := ComputeKpis(BuildLastWeek(rows, selected));
      k.cancel == k.grossNewSales - k.netNewSales
  {
    CancelKpiIsGrossMinusNet(BuildLastWeek(rows, selected));
  }

  /** The one-row frame `weekly_sales_table` returns. */
  datatype WeeklySales = WeeklySales(cmyNetNewSales: int, shipments: int, cancellations: int, nmyNewSales: int)

  /** `weekly_sales_table`: this week's net sales, shipments, cancellations
      and next-MY sales, each summed over the snapshot. */
  function WeeklySalesTable(lw: seq<SnapshotRow>): (t: WeeklySales)
    ensures t.cmyNetNewSales == SnapshotSum(lw, CurrentMYNetSales)
    ensures t.shipments == SnapshotSum(lw, WeeklyExports)
    ensures t.cancellations == CancelSum(lw)
    ensures t.nmyNewSales == SnapshotSum(lw, NextMYNetSales)
  {
    var k := ComputeKpis(lw);
    WeeklySales(k.netNewSales, k.shipments, k.cancel, k.nmyNetNewSales)
  }

  /** The one-row frame `total_exports_table` returns. */
  datatype TotalExports = TotalExports(accumulatedExports: int, outstandingSales: int, totalCommitment: int, nextMySales: int)

  /** `total_exports_table`: accumulated exports, outstanding sales, total
      commitment and next-MY outstanding sales, each summed over the
      snapshot. */
  function TotalExportsTable(lw: seq<SnapshotRow>): (t: TotalExports)
    ensures t.accumulatedExports == SnapshotSum(lw, AccumulatedExports)
    ensures t.outstandingSales == SnapshotSum(lw, OutstandingSales)
    ensures t.totalCommitment == SnapshotSum(lw, CurrentMYTotalCommitment)
    ensures t.nextMySales == SnapshotSum(lw, NextMYOutstandingSales)
  {
    var k := ComputeKpis(lw);
    TotalExports(k.cumExports, k.outstanding, k.commitment, k.nmyOutstanding)
  }
}

=== FILE: marketing_weeks.dfy ===
/** `weekly["MktingWeek"] = weekly.groupby("MY").cumcount() + 1` over the
    grouped frame sorted by (MY, date), and the per-year selection
    `weekly[weekly["MY"] == y]` the plots draw from. */
module MarketingWeeks {
  import opened EsrData
  import opened Aggregation

  /** A grouped row together with its marketing-week number. */
  datatype WeekRow = WeekRow(my: int, date: int, m: Measures, week: int)

  /** The number of grouped rows of marketing year `y`. */
  function CountMy(w: seq<WeeklyTotal>, y: int): nat
  {
    if |w| == 0 then 0 else CountMy(w[..|w| - 1], y) + (if w[|w| - 1].key.my == y then 1 else 0)
  }

  /** The grouped frame with `MktingWeek` added. Each row keeps its MY, date
      and sums, and its week lies between 1 and the size of its year. */
  function Number(w: seq<WeeklyTotal>): (r: seq<WeekRow>)
    ensures |r| == |w|
    ensures forall i :: 0 <= i < |w| ==> r[i].my == w[i].key.my && r[i].date == w[i].key.date && r[i].m == w[i].m
    ensures forall i :: 0 <= i < |w| ==> 1 <= r[i].week <= CountMy(w, w[i].key.my)
  {
    if |w| == 0 then []
    else
      var p := w[..|w| - 1];
      var x := w[|w| - 1];
      Number(p) + [WeekRow(x.key.my, x.key.date, x.m, CountMy(p, x.key.my) + 1)]
  }

  /** `weekly[weekly["MY"] == y]`: the rows of year `y`, in frame order. */
  function Series(r: seq<WeekRow>, y: int): (s: seq<WeekRow>)
    ensures forall x :: x in s <==> x in r && x.my == y
  {
    if |r| == 0 then []
    else Series(r[..|r| - 1], y) + (if r[|r| - 1].my == y then [r[|r| - 1]] else [])
  }

  /** The week of row i is one more than the number of earlier rows of its
      year: the meaning of `cumcount() + 1`. */
  lemma {:induction false} NumberIsCumcount(w: seq<WeeklyTotal>, i: int)
    requires 0 <= i < |w|
    ensures Number(w)[i].week == CountMy(w[..i], w[i].key.my) + 1
  {
    var p := w[..|w| - 1];
    if i < |w| - 1 {
      NumberIsCumcount(p, i);
      assert Number(w)[i] == Number(p)[i];
      assert p[..i] == w[..i];
    } else {
      assert p == w[..i];
    }
  }

  /** A row of year y at position i makes later prefixes count more rows of y. */
  lemma {:induction false} CountPrefixGrows(w: seq<WeeklyTotal>, i: int, j: int)
    requires 0 <= i < j <= |w|
    ensures CountMy(w[..j], w[i].key.my) > CountMy(w[..i], w[i].key.my)
    decreases j
  {
    var y := w[i].key.my;
    if j == i + 1 {
      assert w[..j][..i] == w[..i];
    } else {
      CountPrefixGrows(w, i, j - 1);
      assert w[..j][..j - 1] == w[..j - 1];
    }
  }

  /** Within a marketing year, week order is date order: numbers strictly
      increase with the date, so no year has the same week twice. */
  lemma WeeksFollowDates(w: seq<WeeklyTotal>)
    requires StrictlySorted(w)
    ensures forall i, j :: 0 <= i < |w| && 0 <= j < |w| && Number(w)[i].my == Number(w)[j].my ==>
      (Number(w)[i].date < Number(w)[j].date <==> Number(w)[i].week < Number(w)[j].week)
  {
    var r := Number(w);
    forall i, j | 0 <= i < j < |w| && r[i].my == r[j].my
      ensures r[i].date < r[j].date && r[i].week < r[j].week
    {
      assert KeyLess(w[i].key, w[j].key);
      NumberIsCumcount(w, i);
      NumberIsCumcount(w, j);
      CountPrefixGrows(w, i, j);
    }
  }

  /** The rows of each year carry the weeks 1, 2, ..., W in order, where W is
      the number of rows of that year: no gaps and no repeats. */
  lemma {:induction false} SeriesConsecutive(w: seq<WeeklyTotal>, y: int)
    ensures |Series(Number(w), y)| == CountMy(w, y)
    ensures forall i :: 0 <= i < |Series(Number(w), y)| ==> Series(Number(w), y)[i].week == i + 1
  {
    if |w| > 0 {
      var p := w[..|w| - 1];
      SeriesConsecutive(p, y);
      var r := Number(w);
      assert r[..|r| - 1] == Number(p);
    }
  }

  /** Along each year's rows the dates strictly increase. */
  lemma {:induction false} SeriesDatesIncrease(w: seq<WeeklyTotal>, y: int)
    requires StrictlySorted(w)
    ensures forall i, j :: 0 <= i < j < |Series(Number(w), y)| ==>
      Series(Number(w), y)[i].date < Series(Number(w), y)[j].date
  {
    if |w| > 0 {
      var p := w[..|w| - 1];
      var x := w[|w| - 1];
      SeriesDatesIncrease(p, y);
      var r := Number(w);
      assert r[..|r| - 1] == Number(p);
      var sp := Series(Number(p), y);
      var s := Series(r, y);
      if x.key.my == y {
        assert s == sp + [r[|r| - 1]];
        forall k | 0 <= k < |sp| ensures sp[k].date < x.key.date {
          assert sp[k] in sp;
          var a :| 0 <= a < |p| && Number(p)[a] == sp[k];
          assert KeyLess(w[a].key, x.key);
        }
      } else {
        assert s == sp;
      }
    }
  }

  /** The dates a year has in the input. */
  function DatesOf(rows: seq<EsrRow>, y: int): set<int>
  {
    set i | 0 <= i < |rows| && rows[i].my == y :: rows[i].date
  }

  /** The dates a year has in a grouped frame. */
  function FrameDates(w: seq<WeeklyTotal>, y: int): set<int>
  {
    set i | 0 <= i < |w| && w[i].key.my == y :: w[i].key.date
  }

  /** Appending a row adds its date to its own year's dates only. */
  lemma FrameDatesSnoc(w: seq<WeeklyTotal>, y: int)
    requires |w| > 0
    ensures var x := w[|w| - 1];
      FrameDates(w, y) == FrameDates(w[..|w| - 1], y) + (if x.key.my == y then {x.key.date} else {})
  {
    var p := w[..|w| - 1];
    assert forall i :: 0 <= i < |p| ==> w[i] == p[i];
  }

  /** In a strictly sorted frame a year has one row per distinct date. */
  lemma {:induction false} CountIsDistinctDates(w: seq<WeeklyTotal>, y: int)
    requires StrictlySorted(w)
    ensures CountMy(w, y) == |FrameDates(w, y)|
  {
    if |w| > 0 {
      var p := w[..|w| - 1];
      var x := w[|w| - 1];
      CountIsDistinctDates(p, y);
      FrameDatesSnoc(w, y);
      if x.key.my == y {
        assert x.key.date !in FrameDates(p, y) by {
          forall i | 0 <= i < |p| && p[i].key.my == y ensures p[i].key.date != x.key.date {
            assert KeyLess(w[i].key, x.key);
          }
        }
      }
    }
  }

  /** A frame covering exactly the input's (MY, date) pairs has, for every
      year, exactly the input's dates of that year. */
  lemma FrameDatesOfInput(rows: seq<EsrRow>, w: seq<WeeklyTotal>, y: int)
    requires KeysOf(w) == RowKeys(rows)
    ensures FrameDates(w, y) == DatesOf(rows, y)
  {
    forall d | d in FrameDates(w, y) ensures d in DatesOf(rows, y) {
      var i :| 0 <= i < |w| && w[i].key.my == y && w[i].key.date == d;
      assert w[i].key in KeysOf(w);
      var j :| 0 <= j < |rows| && KeyOf(rows[j]) == w[i].key;
    }
    forall d | d in DatesOf(rows, y) ensures d in FrameDates(w, y) {
      var j :| 0 <= j < |rows| && rows[j].my == y && rows[j].date == d;
      assert KeyOf(rows[j]) in RowKeys(rows);
      var i :| 0 <= i < |w| && w[i].key == KeyOf(rows[j]);
    }
  }

  /** After grouping, a year with W distinct input dates has exactly W rows,
      numbered 1..W. */
  lemma WeeksPerYear(rows: seq<EsrRow>, y: int)
    ensures |Series(Number(Aggregate(rows)), y)| == |DatesOf(rows, y)|
    ensures forall i :: 0 <= i < |Series(Number(Aggregate(rows)), y)| ==>
      Series(Number(Aggregate(rows)), y)[i].week == i + 1
  {
    var w := Aggregate(rows);
    SeriesConsecutive(w, y);
    CountIsDistinctDates(w, y);
    FrameDatesOfInput(rows, w, y);
  }
}

=== FILE: month_axis.dfy ===
/** The month labels on the seasonal plots' week axis: the month list
    rotated to the marketing-year start month, one label per four weeks,
    and a tick on every fourth week starting at week 1. The functions take
    the month list as a parameter (`months` in the plotting code); the
    plots pass `Months`. */
module MonthAxis {
  import opened Arith
  import opened Slices

  const Months: seq<string> := ["Jan", "Feb", "Mar", "Apr", "May", "Jun", "Jul", "Aug", "Sep", "Oct", "Nov", "Dec"]

  /** `ordered = months[my_start_month-1:] + months[:my_start_month-1]`:
      the months rotated so that the start month comes first. */
  function Ordered<M>(months: seq<M>, startMonth: int): (r: seq<M>)
    requires |months| == 12
    ensures |r| == 12
    ensures multiset(r) == multiset(months)
    ensures forall i :: 0 <= i < 12 ==> r[i] == months[(i + Resolve(startMonth - 1, 12)) % 12]
  {
    Rotation(months, startMonth - 1);
    From(months, startMonth - 1) + Upto(months, startMonth - 1)
  }

  /** `min((w - 1) // 4, 11)`: weeks 1-4 take the first month, 5-8 the
      second, and every week from 45 on the twelfth. For w >= 1 the operand
      is non-negative, so Python's floor division agrees with Dafny's `/`. */
  function LabelIndex(w: int): (k: int)
    requires w >= 1
    ensures 0 <= k <= 11
    ensures w <= 44 ==> 4 * k + 1 <= w <= 4 * k + 4
    ensures w >= 45 ==> k == 11
  {
    Min((w - 1) / 4, 11)
  }

  /** `month_labels`: the label of every week 1..xmax (index w - 1). Week w
      shows the month `LabelIndex(w)` places after the month the slice
      bound `my_start_month - 1` resolves to, so any start month, even one
      outside 1..12, labels every week with some month of the list. */
  function MonthLabels<M>(months: seq<M>, xmax: nat, startMonth: int): (r: seq<M>)
    requires |months| == 12
    ensures |r| == xmax
    ensures forall w :: 1 <= w <= xmax ==> r[w - 1] == months[(Resolve(startMonth - 1, 12) + LabelIndex(w)) % 12]
  {
    var ordered := Ordered(months, startMonth);
    seq(xmax, i requires 0 <= i < xmax => ordered[LabelIndex(i + 1)])
  }

  datatype Tick<M> = Tick(week: int, text: M)

  /** Whether week w gets a tick: weeks 1, 5, 9, ... */
  predicate TickWeek(w: int)
  {
    w >= 1 && (w - 1) % 4 == 0
  }

  /** `set_xticks(weeks[::4])` with `set_xticklabels(month_labels[::4])`:
      a tick on every week 1, 5, 9, ... up to xmax, in order, each
      carrying its week's label. */
  function Ticks<M>(months: seq<M>, xmax: nat, startMonth: int): (r: seq<Tick<M>>)
    requires |months| == 12
    ensures forall k :: 0 <= k < |r| ==> r[k].week == 4 * k + 1 && r[k].week <= xmax
    ensures forall w :: 1 <= w <= xmax && TickWeek(w) ==> (w - 1) / 4 < |r|
    ensures forall k :: 0 <= k < |r| ==> r[k].text == MonthLabels(months, xmax, startMonth)[r[k].week - 1]
  {
    var labels := MonthLabels(months, xmax, startMonth);
    var n := (xmax + 3) / 4;
    seq(n, k requires 0 <= k < n => Tick(4 * k + 1, labels[4 * k]))
  }

  /** Tick k sits on week 4k + 1 and shows that week's month. */
  lemma TickText<M>(months: seq<M>, xmax: nat, startMonth: int, k: int)
    requires |months| == 12
    requires 0 <= k && 4 * k + 1 <= xmax
    ensures k < |Ticks(months, xmax, startMonth)|
    ensures Ticks(months, xmax, startMonth)[k].text == months[(Resolve(startMonth - 1, 12) + LabelIndex(4 * k + 1)) % 12]
  {
    assert TickWeek(4 * k + 1);
  }

  /** For a start month 1..12, the label of week w is the month
      `LabelIndex(w)` months after the start month. */
  lemma LabelOfWeek<M>(months: seq<M>, xmax: nat, startMonth: int, w: int)
    requires |months| == 12
    requires 1 <= startMonth <= 12
    requires 1 <= w <= xmax
    ensures MonthLabels(months, xmax, startMonth)[w - 1] == months[(startMonth - 1 + LabelIndex(w)) % 12]
  {
  }

  /** Week 1 is labelled with the start month, and every week from 45 on
      with the month just before it. */
  lemma FirstAndLateLabels<M>(months: seq<M>, xmax: nat, startMonth: int, w: int)
    requires |months| == 12
    requires 1 <= startMonth <= 12
    requires 1 <= w <= xmax
    ensures w == 1 ==> MonthLabels(months, xmax, startMonth)[w - 1] == months[startMonth - 1]
    ensures w >= 45 ==> MonthLabels(months, xmax, startMonth)[w - 1] == months[(startMonth + 10) % 12]
  {
    LabelOfWeek(months, xmax, startMonth, w);
  }

  /** On an axis of at least 45 weeks the first twelve ticks spell out the
      rotated month list, each month once. */
  lemma TwelveTicksSpellOrderedMonths<M>(months: seq<M>, xmax: nat, startMonth: int, k: int)
    requires |months| == 12
    requires xmax >= 45
    requires 0 <= k < 12
    ensures k < |Ticks(months, xmax, startMonth)|
    ensures Ticks(months, xmax, startMonth)[k].text == Ordered(months, startMonth)[k]
  {
    assert TickWeek(4 * k + 1);
  }

  /** Whatever the start month, even outside 1..12, Python's slicing gives a
      rotation of the twelve months: the start month first when it is in
      1..12, and the months unrotated when the bound falls outside the list. */
  lemma OrderedIsRotation<M>(months: seq<M>, startMonth: int)
    requires |months| == 12
    ensures multiset(Ordered(months, startMonth)) == multiset(months)
    ensures 1 <= startMonth <= 12 ==> Ordered(months, startMonth)[0] == months[startMonth - 1]
    ensures startMonth >= 13 || startMonth <= -11 ==> Ordered(months, startMonth) == months
  {
    if startMonth >= 13 || startMonth <= -11 {
      var r := Ordered(months, startMonth);
      forall i | 0 <= i < 12 ensures r[i] == months[i] {
      }
    }
  }
}

=== FILE: ranking.dfy ===
/** The destination rankings drawn from the snapshot: the top-20 bar chart
    (`commitments_hbar`) and the commitments table (`commitments_table`). */
module Ranking {
  import opened EsrData
  import opened Arith
  import opened LastWeek

  /** The four columns both views keep. */
  datatype CommitmentRow = CommitmentRow(country: Option<string>, accumulated: int, outstanding: int, commitment: int)

  /** The number of destinations the bar chart keeps (`.head(20)`). */
  const TopCount: int := 20

  /** `last_week[["countryDescription", "accumulatedExports",
      "outstandingSales", "currentMYTotalCommitment"]]` */
  function Project(lw: seq<SnapshotRow>): (r: seq<CommitmentRow>)
    ensures |r| == |lw|
    ensures forall i :: 0 <= i < |lw| ==>
      r[i] == CommitmentRow(lw[i].country, lw[i].m.accumulatedExports, lw[i].m.outstandingSales, lw[i].m.currentMYTotalCommitment)
  {
    seq(|lw|, i requires 0 <= i < |lw| =>
      CommitmentRow(lw[i].country, lw[i].m.accumulatedExports, lw[i].m.outstandingSales, lw[i].m.currentMYTotalCommitment))
  }

  /** Whether `a` may stand before `b` when sorting by commitment. */
  predicate InOrder(a: CommitmentRow, b: CommitmentRow, descending: bool)
  {
    if descending then a.commitment >= b.commitment else a.commitment <= b.commitment
  }

  predicate SortedBy(s: seq<CommitmentRow>, descending: bool)
  {
    forall i, j :: 0 <= i < j < |s| ==> InOrder(s[i], s[j], descending)
  }

  lemma ConsSorted(x: CommitmentRow, t: seq<CommitmentRow>, descending: bool)
    requires SortedBy(t, descending)
    requires forall k :: 0 <= k < |t| ==> InOrder(x, t[k], descending)
    ensures SortedBy([x] + t, descending)
  {
    var c := [x] + t;
    forall i, j | 0 <= i < j < |c| ensures InOrder(c[i], c[j], descending) {
      assert c[j] == t[j - 1];
      if i > 0 {
        assert c[i] == t[i - 1];
      }
    }
  }

  /** Every row of the insertion into `s[1..]` may follow `s[0]`. */
  lemma InsertFollows(s: seq<CommitmentRow>, x: CommitmentRow, descending: bool, tail: seq<CommitmentRow>)
    requires |s| > 0 && SortedBy(s, descending)
    requires !InOrder(x, s[0], descending)
    requires multiset(tail) == multiset(s[1..]) + multiset{x}
    ensures forall k :: 0 <= k < |tail| ==> InOrder(s[0], tail[k], descending)
  {
    forall k | 0 <= k < |tail| ensures InOrder(s[0], tail[k], descending) {
      assert tail[k] in multiset(tail);
      if tail[k] != x {
        assert tail[k] in multiset(s[1..]);
        var a :| 0 <= a < |s[1..]| && s[1..][a] == tail[k];
        assert InOrder(s[0], s[a + 1], descending);
      }
    }
  }

  /** Inserts `x` into a sorted sequence, after the rows it does not precede. */
  function Insert(s: seq<CommitmentRow>, x: CommitmentRow, descending: bool): (r: seq<CommitmentRow>)
    requires SortedBy(s, descending)
    ensures SortedBy(r, descending)
    ensures multiset(r) == multiset(s) + multiset{x}
  {
    if |s| == 0 then [x]
    else if InOrder(x, s[0], descending) then
      ConsSorted(x, s, descending);
      [x] + s
    else
      var tail := Insert(s[1..], x, descending);
      assert s == [s[0]] + s[1..];
      InsertFollows(s, x, descending, tail);
      ConsSorted(s[0], tail, descending);
      [s[0]] + tail
  }

  /** `sort_values("currentMYTotalCommitment", ascending=not descending)`:
      the same rows, ordered by commitment. */
  function Sort(s: seq<CommitmentRow>, descending: bool): (r: seq<CommitmentRow>)
    ensures SortedBy(r, descending)
    ensures multiset(r) == multiset(s)
  {
    if |s| == 0 then []
    else
      assert s == s[..|s| - 1] + [s[|s| - 1]];
      Insert(Sort(s[..|s| - 1], descending), s[|s| - 1], descending)
  }

  /** Rows dropped from the back of a descending sort have no larger
      commitment than the rows kept at the front. */
  lemma HeadKeepsLargest(d: seq<CommitmentRow>, n: nat)
    requires SortedBy(d, true)
    requires n <= |d|
    ensures multiset(d) - multiset(d[..n]) == multiset(d[n..])
    ensures forall x, y :: x in multiset(d[n..]) && y in multiset(d[..n]) ==> x.commitment <= y.commitment
  {
    assert d == d[..n] + d[n..];
    forall x, y | x in multiset(d[n..]) && y in multiset(d[..n]) ensures x.commitment <= y.commitment {
      var a :| 0 <= a < |d[n..]| && d[n..][a] == x;
      var b :| 0 <= b < |d[..n]| && d[..n][b] == y;
      assert InOrder(d[b], d[n + a], true);
    }
  }

  /** The data of `commitments_hbar`: the 20 destinations with the largest
      commitments (all of them when there are fewer), in ascending order of
      commitment for the horizontal bars. */
  function CommitmentsHbar(lw: seq<SnapshotRow>): (r: seq<CommitmentRow>)
    ensures |r| == Min(TopCount, |lw|)
    ensures SortedBy(r, false)
    ensures multiset(r) <= multiset(Project(lw))
    ensures forall x, y :: x in multiset(Project(lw)) - multiset(r) && y in multiset(r) ==>
      x.commitment <= y.commitment
  {
    var d := Sort(Project(lw), true);
    var n := Min(TopCount, |d|);
    HeadKeepsLargest(d, n);
    assert multiset(d) == multiset(d[..n]) + multiset(d[n..]) by {
      assert d == d[..n] + d[n..];
    }
    var top := d[..n];
    var r := Sort(top, false);
    assert |r| == |top| by {
      assert |multiset(r)| == |multiset(top)|;
    }
    r
  }

  /** `.dropna(subset=["countryDescription"])`: the rows that have a
      country description, each as often as in `s`, and no other rows. */
  function WithCountry(s: seq<CommitmentRow>): (r: seq<CommitmentRow>)
    ensures forall x :: multiset(r)[x] == if x.country.Some? then multiset(s)[x] else 0
    ensures forall i :: 0 <= i < |r| ==> r[i].country.Some?
  {
    if |s| == 0 then []
    else
      var p := s[..|s| - 1];
      var last := s[|s| - 1];
      var rest := WithCountry(p);
      assert s == p + [last];
      assert multiset(s) == multiset(p) + multiset{last};
      var r := rest + (if last.country.Some? then [last] else []);
      assert multiset(r) == multiset(rest) + (if last.country.Some? then multiset{last} else multiset{});
      r
  }

  /** The data of `commitments_table`: every destination with a country
      description, by commitment, largest first. Every row of the snapshot
      with a country appears as often as in the snapshot; rows without one
      do not appear. */
  function CommitmentsTable(lw: seq<SnapshotRow>): (r: seq<CommitmentRow>)
    ensures SortedBy(r, true)
    ensures forall x :: multiset(r)[x] == if x.country.Some? then multiset(Project(lw))[x] else 0
    ensures forall i :: 0 <= i < |r| ==> r[i].country.Some?
  {
    var w := WithCountry(Project(lw));
    var r := Sort(w, true);
    forall i | 0 <= i < |r| ensures r[i].country.Some? {
      assert r[i] in multiset(w);
      var j :| 0 <= j < |w| && w[j] == r[i];
    }
    r
  }
}

=== FILE: seasonal.dfy ===
/** The data behind the two seasonal plots, `seasonal_commitments_plot` and
    `seasonal_line_plot`: both group the report rows to one row per
    (MY, date), number the weeks of each MY, take the CMY from the latest
    date, choose the years to draw, size the week axis and label it with
    months. The drawing itself is not modelled; the functions return what
    would be drawn. */
module Seasonal {
  import opened EsrData
  import opened Arith
  import opened Slices
  import opened Aggregation
  import opened MarketingWeeks
  import opened CurrentYear
  import opened YearSelection
  import opened MonthAxis

  /** The shortest week axis the plots draw. */
  const MinAxisWeeks: int := 52

  /** The default `my_start_month` of both plots, which the dashboard does
      not override: the marketing year starts in August. */
  const DefaultStartMonth: int := 8

  /** The default `years` of the line plot. */
  const DefaultYears: int := 5

  /** What a year's line plots: one report column, or (for the prior years
      of the commitments plot) accumulated exports plus outstanding sales. */
  datatype Quantity = ColumnValue(c: Column) | Committed

  function ValueOf(m: Measures, q: Quantity): int
  {
    match q
    case ColumnValue(c) => Get(m, c)
    case Committed => m.accumulatedExports + m.outstandingSales
  }

  datatype Point = Point(week: int, date: int, value: int)

  datatype YearLine = YearLine(my: int, points: seq<Point>)

  /** One stacked bar of the current year: exports shipped and sales still
      outstanding. */
  datatype Bar = Bar(week: int, date: int, accumulated: int, outstanding: int)

  datatype CommitmentsChart = CommitmentsChart(
    cmy: int, bars: seq<Bar>, priorYears: seq<YearLine>, xmax: int, ticks: seq<Tick<string>>)

  datatype LineChart = LineChart(cmy: int, lines: seq<YearLine>, xmax: int, ticks: seq<Tick<string>>)

  /** The frame `weekly` both plots build. */
  function Weekly(rows: seq<EsrRow>): seq<WeekRow>
  {
    Number(Aggregate(rows))
  }

  /** `weekly["MY"]` */
  function MyColumn(r: seq<WeekRow>): (ys: seq<int>)
    ensures forall y :: y in ys <==> exists i :: 0 <= i < |r| && r[i].my == y
  {
    if |r| == 0 then []
    else
      var p := r[..|r| - 1];
      assert forall i :: 0 <= i < |p| ==> p[i] == r[i];
      MyColumn(p) + [r[|r| - 1].my]
  }

  /** `int(max(52, weekly["MktingWeek"].max()))`: wide enough for every
      week, and never narrower than 52 weeks. With no rows pandas' max is
      NaN and `max(52, NaN)` is 52. */
  function XMax(r: seq<WeekRow>): (x: int)
    ensures x >= MinAxisWeeks
    ensures forall i :: 0 <= i < |r| ==> r[i].week <= x
    ensures x == MinAxisWeeks || exists i :: 0 <= i < |r| && r[i].week == x
  {
    if |r| == 0 then MinAxisWeeks
    else Max(XMax(r[..|r| - 1]), r[|r| - 1].week)
  }

  /** The points of year y: `(d["MktingWeek"], value)` for
      `d = weekly[weekly["MY"] == y]`. */
  function YearPoints(r: seq<WeekRow>, y: int, q: Quantity): (pts: seq<Point>)
  {
    var s := Series(r, y);
    seq(|s|, i requires 0 <= i < |s| => Point(s[i].week, s[i].date, ValueOf(s[i].m, q)))
  }

  /** One line per selected year. */
  function Lines(r: seq<WeekRow>, years: seq<int>, q: Quantity): (ls: seq<YearLine>)
    ensures |ls| == |years|
    ensures forall k :: 0 <= k < |ls| ==> ls[k].my == years[k]
  {
    seq(|years|, k requires 0 <= k < |years| => YearLine(years[k], YearPoints(r, years[k], q)))
  }

  /** The current year's stacked bars. */
  function Bars(r: seq<WeekRow>, cmy: int): seq<Bar>
  {
    var s := Series(r, cmy);
    seq(|s|, i requires 0 <= i < |s| => Bar(s[i].week, s[i].date, s[i].m.accumulatedExports, s[i].m.outstandingSales))
  }

  /** A year's points as the plots promise them, in terms of the input rows:
      weeks 1..W in order, one per distinct date of the year, dates
      ascending, and each value the quantity summed over the input rows of
      that (MY, date). */
  predicate FaithfulPoints(rows: seq<EsrRow>, y: int, q: Quantity, pts: seq<Point>)
  {
    && |pts| == |DatesOf(rows, y)|
    && (forall i :: 0 <= i < |pts| ==> pts[i].week == i + 1)
    && (forall i, j :: 0 <= i < j < |pts| ==> pts[i].date < pts[j].date)
    && (forall i :: 0 <= i < |pts| ==> pts[i].date in DatesOf(rows, y))
    && (forall i :: 0 <= i < |pts| ==> pts[i].value == ValueOf(SumFor(rows, Key(y, pts[i].date)), q))
  }

  /** A row of year y in `weekly` is the group of (y, its date). */
  lemma SeriesRowIsGroup(rows: seq<EsrRow>, y: int, x: WeekRow)
    requires x in Series(Weekly(rows), y)
    ensures x.my == y
    ensures x.m == SumFor(rows, Key(y, x.date))
    ensures x.date in DatesOf(rows, y)
  {
    var w := Aggregate(rows);
    var r := Weekly(rows);
    var i :| 0 <= i < |r| && r[i] == x;
    AggregateRowIsGroupSum(rows, i);
    assert w[i].key == Key(y, x.date);
    assert w[i].key in KeysOf(w);
    var j :| 0 <= j < |rows| && KeyOf(rows[j]) == w[i].key;
  }

  /** Every year's line is faithful to the input rows. */
  lemma YearPointsFaithful(rows: seq<EsrRow>, y: int, q: Quantity)
    ensures FaithfulPoints(rows, y, q, YearPoints(Weekly(rows), y, q))
  {
    var s := Series(Weekly(rows), y);
    WeeksPerYear(rows, y);
    SeriesDatesIncrease(Aggregate(rows), y);
    forall i | 0 <= i < |s| ensures s[i].m == SumFor(rows, Key(y, s[i].date)) && s[i].date in DatesOf(rows, y) {
      assert s[i] in s;
      SeriesRowIsGroup(rows, y, s[i]);
    }
  }

  /** Grouping leaves rows exactly when there were rows. */
  lemma WeeklyEmptyIffNoRows(rows: seq<EsrRow>)
    ensures |Weekly(rows)| == 0 <==> |rows| == 0
  {
    if |rows| > 0 {
      assert KeyOf(rows[0]) in RowKeys(rows);
    }
  }

  /** The week axis as the input determines it: at least 52 weeks, at
      least as many as any marketing year (drawn or not) has report dates,
      and either 52 or the date count of some input year. */
  ghost predicate AxisOf(rows: seq<EsrRow>, xmax: int)
  {
    && xmax >= MinAxisWeeks
    && (forall y :: |DatesOf(rows, y)| <= xmax)
    && (xmax == MinAxisWeeks || exists y :: y in InputYears(rows) && |DatesOf(rows, y)| == xmax)
  }

  /** The marketing years present in the input. */
  function InputYears(rows: seq<EsrRow>): (ys: set<int>)
    ensures forall y :: y in ys <==> exists j :: 0 <= j < |rows| && rows[j].my == y
  {
    set j | 0 <= j < |rows| :: rows[j].my
  }

  /** Every MY of `weekly` is an MY of the input, and conversely. */
  lemma WeeklyYears(rows: seq<EsrRow>)
    ensures forall y :: y in MyColumn(Weekly(rows)) <==> y in InputYears(rows)
  {
    var w := Aggregate(rows);
    var r := Weekly(rows);
    forall y | y in MyColumn(r) ensures y in InputYears(rows) {
      var i :| 0 <= i < |r| && r[i].my == y;
      assert w[i].key in KeysOf(w);
      var j :| 0 <= j < |rows| && KeyOf(rows[j]) == w[i].key;
    }
    forall y | y in InputYears(rows) ensures y in MyColumn(r) {
      var j :| 0 <= j < |rows| && rows[j].my == y;
      assert KeyOf(rows[j]) in RowKeys(rows);
      var i :| 0 <= i < |w| && w[i].key == KeyOf(rows[j]);
      assert r[i].my == y;
    }
  }

  /** The CMY the plots use is the smallest MY among the input rows at the
      latest date. */
  predicate IsCmyOf(rows: seq<EsrRow>, cmy: int)
    requires |rows| > 0
  {
    && (exists j :: 0 <= j < |rows| && rows[j].date == MaxDate(rows).value && rows[j].my == cmy)
    && (forall j :: 0 <= j < |rows| && rows[j].date == MaxDate(rows).value ==> cmy <= rows[j].my)
  }

  /** The CMY's bars as the commitments plot promises them: weeks 1..W in
      order, one per distinct date of the CMY with the dates ascending (bar
      w is the CMY's w-th report date), each stacking the summed
      accumulated exports on the summed outstanding sales of that date, and
      all within the axis. */
  predicate FaithfulBars(rows: seq<EsrRow>, cmy: int, bars: seq<Bar>, xmax: int)
  {
    && |bars| == |DatesOf(rows, cmy)|
    && (forall i, j :: 0 <= i < j < |bars| ==> bars[i].date < bars[j].date)
    && forall i :: 0 <= i < |bars| ==>
      && bars[i].week == i + 1
      && bars[i].week <= xmax
      && bars[i].date in DatesOf(rows, cmy)
      && bars[i].accumulated == SumFor(rows, Key(cmy, bars[i].date)).accumulatedExports
      && bars[i].outstanding == SumFor(rows, Key(cmy, bars[i].date)).outstandingSales
  }

  /** Each line faithful to the input, and within the axis. */
  predicate FaithfulLines(rows: seq<EsrRow>, q: Quantity, lines: seq<YearLine>, xmax: int)
  {
    && (forall k :: 0 <= k < |lines| ==> FaithfulPoints(rows, lines[k].my, q, lines[k].points))
    && (forall k, i :: 0 <= k < |lines| && 0 <= i < |lines[k].points| ==> lines[k].points[i].week <= xmax)
  }

  /** `sel` is a `[-n:]` cut, ascending, of the distinct `avail` years
      that pass the bound: every such year left out is smaller than every
      year kept. */
  predicate LatestOf(avail: set<int>, sel: seq<int>, bound: int, inclusive: bool)
  {
    && Increasing(sel)
    && (forall k :: 0 <= k < |sel| ==> sel[k] in avail && (if inclusive then sel[k] <= bound else sel[k] < bound))
    && (forall y, k :: y in avail && (if inclusive then y <= bound else y < bound) && y !in sel && 0 <= k < |sel| ==> y < sel[k])
  }

  /** The prior years of the commitments plot: the latest (at most five)
      distinct input years before the CMY, ascending. */
  predicate PriorYearsOf(rows: seq<EsrRow>, cmy: int, lines: seq<YearLine>)
  {
    && LatestOf(InputYears(rows), YearsOf(lines), cmy, false)
    && |lines| == Min(PriorYearCount, |set y | y in InputYears(rows) && y < cmy|)
  }

  /** The years of the line plot: `[-years:]` of the distinct input years
      up to the CMY, ascending, ending with the CMY when years >= 1. */
  predicate PlotYearsOf(rows: seq<EsrRow>, cmy: int, years: int, lines: seq<YearLine>)
  {
    PlotSelection(InputYears(rows), cmy, years, YearsOf(lines))
  }

  predicate PlotSelection(avail: set<int>, cmy: int, years: int, sel: seq<int>)
  {
    var n := |set y | y in avail && y <= cmy|;
    && LatestOf(avail, sel, cmy, true)
    && |sel| == (if years > 0 then Min(years, n) else if years == 0 then n else Max(0, n + years))
    && (years >= 1 ==> |sel| >= 1 && sel[|sel| - 1] == cmy)
  }

  function YearsOf(lines: seq<YearLine>): (ys: seq<int>)
    ensures |ys| == |lines|
    ensures forall k :: 0 <= k < |lines| ==> ys[k] == lines[k].my
  {
    seq(|lines|, k requires 0 <= k < |lines| => lines[k].my)
  }

  /** The CMY both plots use, taken from the grouped frame, is the
      smallest MY among the input rows at the latest date. */
  lemma CmyOfInput(rows: seq<EsrRow>)
    requires |rows| > 0
    ensures |Weekly(rows)| > 0
    ensures IsCmyOf(rows, CurrentMy(Weekly(rows)))
  {
    WeeklyEmptyIffNoRows(rows);
    CurrentMyOfInput(rows);
  }

  /** Every year's report dates fit on the axis: its last week is a row of
      the grouped frame. */
  lemma YearFitsAxis(rows: seq<EsrRow>, y: int)
    ensures |DatesOf(rows, y)| <= XMax(Weekly(rows))
  {
    var s := Series(Weekly(rows), y);
    WeeksPerYear(rows, y);
    if |s| > 0 {
      assert s[|s| - 1] in s;
    }
  }

  /** An axis wider than 52 weeks is exactly as wide as some input year
      has report dates. */
  lemma AxisIsSomeYear(rows: seq<EsrRow>)
    ensures var x := XMax(Weekly(rows));
      x == MinAxisWeeks || exists y :: y in InputYears(rows) && |DatesOf(rows, y)| == x
  {
    var w := Aggregate(rows);
    var r := Weekly(rows);
    var x := XMax(r);
    if x != MinAxisWeeks {
      var i :| 0 <= i < |r| && r[i].week == x;
      var y := r[i].my;
      assert r[i].week <= CountMy(w, y);
      SeriesConsecutive(w, y);
      WeeksPerYear(rows, y);
      YearFitsAxis(rows, y);
      WeeklyYears(rows);
      assert y in MyColumn(r);
    }
  }

  /** The axis both plots draw is the one the input determines. */
  lemma XMaxOfInput(rows: seq<EsrRow>)
    ensures AxisOf(rows, XMax(Weekly(rows)))
  {
    forall y ensures |DatesOf(rows, y)| <= XMax(Weekly(rows)) {
      YearFitsAxis(rows, y);
    }
    AxisIsSomeYear(rows);
  }

  /** The CMY's bars are faithful to the input rows. */
  lemma BarsFaithful(rows: seq<EsrRow>, cmy: int)
    ensures FaithfulBars(rows, cmy, Bars(Weekly(rows), cmy), XMax(Weekly(rows)))
  {
    var r := Weekly(rows);
    var s := Series(r, cmy);
    var bars := Bars(r, cmy);
    WeeksPerYear(rows, cmy);
    SeriesDatesIncrease(Aggregate(rows), cmy);
    forall i | 0 <= i < |bars|
      ensures bars[i].week == i + 1 && bars[i].week <= XMax(r) && bars[i].date in DatesOf(rows, cmy)
      ensures bars[i].accumulated == SumFor(rows, Key(cmy, bars[i].date)).accumulatedExports
      ensures bars[i].outstanding == SumFor(rows, Key(cmy, bars[i].date)).outstandingSales
    {
      assert s[i] in s;
      SeriesRowIsGroup(rows, cmy, s[i]);
    }
  }

  /** Every line drawn for the chosen years is faithful to the input, and
      the axis reaches each of its weeks. */
  lemma LinesFaithful(rows: seq<EsrRow>, years: seq<int>, q: Quantity)
    ensures FaithfulLines(rows, q, Lines(Weekly(rows), years, q), XMax(Weekly(rows)))
  {
    var r := Weekly(rows);
    var ls := Lines(r, years, q);
    forall k | 0 <= k < |years| ensures FaithfulPoints(rows, years[k], q, ls[k].points) {
      YearPointsFaithful(rows, years[k], q);
    }
    forall k, i | 0 <= k < |ls| && 0 <= i < |ls[k].points| ensures ls[k].points[i].week <= XMax(r) {
      var s := Series(r, years[k]);
      assert s[i] in s;
    }
  }

  /** The years kept by a year selection, carried over to the lines. */
  lemma YearsOfLines(r: seq<WeekRow>, years: seq<int>, q: Quantity)
    ensures YearsOf(Lines(r, years, q)) == years
  {
  }

  /** `prev_years` taken from any list holding exactly the available years
      keeps the latest (at most five) of them before the CMY. */
  lemma PrevYearsFrom(avail: set<int>, mys: seq<int>, cmy: int)
    requires forall y :: y in mys <==> y in avail
    ensures LatestOf(avail, PrevYears(mys, cmy), cmy, false)
    ensures |PrevYears(mys, cmy)| == Min(PriorYearCount, |set y | y in avail && y < cmy|)
  {
    var p := PrevYears(mys, cmy);
    assert (set y | y in mys && y < cmy) == (set y | y in avail && y < cmy);
    forall k | 0 <= k < |p| ensures p[k] in avail && p[k] < cmy {
      assert p[k] in p;
    }
  }

  /** The prior-year lines are the years `prev_years` promises. */
  lemma PriorYearsChosen(rows: seq<EsrRow>, cmy: int)
    ensures PriorYearsOf(rows, cmy, Lines(Weekly(rows), PrevYears(MyColumn(Weekly(rows)), cmy), Committed))
  {
    var mys := MyColumn(Weekly(rows));
    YearsOfLines(Weekly(rows), PrevYears(mys, cmy), Committed);
    WeeklyYears(rows);
    PrevYearsFrom(InputYears(rows), mys, cmy);
  }

  /** The years `plot_years` keeps are the latest available years up to
      the CMY. */
  lemma PlotYearsLatest(avail: set<int>, mys: seq<int>, cmy: int, years: int)
    requires forall y :: y in mys <==> y in avail
    ensures LatestOf(avail, PlotYears(mys, cmy, years), cmy, true)
  {
    var p := PlotYears(mys, cmy, years);
    forall k | 0 <= k < |p| ensures p[k] in avail && p[k] <= cmy {
      assert p[k] in p;
    }
  }

  /** As many years as `[-years:]` leaves of the distinct available years
      up to the CMY. */
  lemma PlotYearsCount(avail: set<int>, mys: seq<int>, cmy: int, years: int)
    requires forall y :: y in mys <==> y in avail
    ensures var n := |set y | y in avail && y <= cmy|;
      |PlotYears(mys, cmy, years)| == (if years > 0 then Min(years, n) else if years == 0 then n else Max(0, n + years))
  {
    assert (set y | y in mys && y <= cmy) == (set y | y in avail && y <= cmy);
  }

  /** `plot_years` taken from any list holding exactly the available years
      is the selection `PlotSelection` describes. */
  lemma PlotYearsFrom(avail: set<int>, mys: seq<int>, cmy: int, years: int)
    requires forall y :: y in mys <==> y in avail
    requires cmy in mys
    ensures PlotSelection(avail, cmy, years, PlotYears(mys, cmy, years))
  {
    PlotYearsLatest(avail, mys, cmy, years);
    PlotYearsCount(avail, mys, cmy, years);
    CmyIsLastPlotYear(mys, cmy, years);
  }

  /** The line plot's lines are the years `plot_years` promises. */
  lemma PlotYearsChosen(rows: seq<EsrRow>, years: int, q: Quantity)
    requires |rows| > 0
    ensures |Weekly(rows)| > 0
    ensures var cmy := CurrentMy(Weekly(rows));
      PlotYearsOf(rows, cmy, years, Lines(Weekly(rows), PlotYears(MyColumn(Weekly(rows)), cmy, years), q))
  {
    WeeklyEmptyIffNoRows(rows);
    var weekly := Weekly(rows);
    var cmy := CurrentMy(weekly);
    var mys := MyColumn(weekly);
    WeeklyYears(rows);
    assert cmy in mys by {
      var i :| 0 <= i < |weekly| && weekly[i].date == LatestDate(weekly) && weekly[i].my == cmy;
    }
    YearsOfLines(weekly, PlotYears(mys, cmy, years), q);
    PlotYearsFrom(InputYears(rows), mys, cmy, years);
  }

  /** With years >= 1 the CMY, being one of the years and the largest year
      kept, is the last year drawn. */
  lemma CmyIsLastPlotYear(mys: seq<int>, cmy: int, years: int)
    requires cmy in mys
    ensures years >= 1 ==>
      var p := PlotYears(mys, cmy, years);
      |p| >= 1 && p[|p| - 1] == cmy
  {
    var p := PlotYears(mys, cmy, years);
    if years >= 1 {
      assert cmy in p;
      var k :| 0 <= k < |p| && p[k] == cmy;
      var last := p[|p| - 1];
      assert last in p;
      assert last <= cmy;
      assert p[k] <= last;
    }
  }

  /** The figure data of `seasonal_commitments_plot`. It fails without an
      `MY` column, and on an empty frame (where `mode().iloc[0]` raises);
      it succeeds otherwise. */
  function SeasonalCommitments(t: EsrTable, startMonth: int): (r: Result<CommitmentsChart>)
    ensures !t.hasMyColumn ==> r == Err(MissingMyColumn)
    ensures t.hasMyColumn && |t.rows| == 0 ==> r == Err(NoRows)
    ensures t.hasMyColumn && |t.rows| > 0 ==> r.Ok?
  {
    if !t.hasMyColumn then Err(MissingMyColumn)
    else
      var weekly := Weekly(t.rows);
      WeeklyEmptyIffNoRows(t.rows);
      if |weekly| == 0 then Err(NoRows)
      else
        var cmy := CurrentMy(weekly);
        var xmax := XMax(weekly);
        Ok(CommitmentsChart(cmy, Bars(weekly, cmy), Lines(weekly, PrevYears(MyColumn(weekly), cmy), Committed),
                            xmax, Ticks(Months, xmax, startMonth)))
  }

  /** What the commitments chart of a frame with an `MY` column and at
      least one row shows, in terms of the input rows: the CMY of the latest date; the CMY's bars as weeks 1..W with
      the summed exports and outstanding sales; the prior years as the
      latest (at most five) distinct years before the CMY, ascending, each
      line faithful to the input; an axis reaching week 52 and every week
      drawn; and ticks every four weeks labelled with the rotated months. */
  lemma CommitmentsChartFacts(t: EsrTable, startMonth: int)
    requires t.hasMyColumn && |t.rows| > 0
    ensures SeasonalCommitments(t, startMonth).Ok?
    ensures var c := SeasonalCommitments(t, startMonth).value;
      && IsCmyOf(t.rows, c.cmy)
      && FaithfulBars(t.rows, c.cmy, c.bars, c.xmax)
      && PriorYearsOf(t.rows, c.cmy, c.priorYears)
      && FaithfulLines(t.rows, Committed, c.priorYears, c.xmax)
      && AxisOf(t.rows, c.xmax)
      && c.ticks == Ticks(Months, c.xmax, startMonth)
  {
    var rows := t.rows;
    WeeklyEmptyIffNoRows(rows);
    var weekly := Weekly(rows);
    var cmy := CurrentMy(weekly);
    var prev := PrevYears(MyColumn(weekly), cmy);
    CmyOfInput(rows);
    BarsFaithful(rows, cmy);
    PriorYearsChosen(rows, cmy);
    LinesFaithful(rows, prev, Committed);
    XMaxOfInput(rows);
  }

  /** The figure data of `seasonal_line_plot`. It fails without an `MY`
      column, then when `value_col` names no report column, then on an
      empty frame; it succeeds otherwise. */
  function SeasonalLine(t: EsrTable, valueCol: string, startMonth: int, years: int): (r: Result<LineChart>)
    ensures !t.hasMyColumn ==> r == Err(MissingMyColumn)
    ensures t.hasMyColumn && ColumnNamed(valueCol).None? ==> r == Err(UnknownColumn(valueCol))
    ensures t.hasMyColumn && ColumnNamed(valueCol).Some? && |t.rows| == 0 ==> r == Err(NoRows)
    ensures t.hasMyColumn && ColumnNamed(valueCol).Some? && |t.rows| > 0 ==> r.Ok?
  {
    if !t.hasMyColumn then Err(MissingMyColumn)
    else
      match ColumnNamed(valueCol)
      case None => Err(UnknownColumn(valueCol))
      case Some(col) =>
        var weekly := Weekly(t.rows);
        WeeklyEmptyIffNoRows(t.rows);
        if |weekly| == 0 then Err(NoRows)
        else
          var cmy := CurrentMy(weekly);
          var xmax := XMax(weekly);
          Ok(LineChart(cmy, Lines(weekly, PlotYears(MyColumn(weekly), cmy, years), ColumnValue(col)),
                       xmax, Ticks(Months, xmax, startMonth)))
  }

  /** What the line chart of a frame with an `MY` column, a known
      `value_col` and at least one row shows, in terms of the input rows: the
      CMY of the latest date; the years `plot_years` selects, each line
      faithful to the chosen column of the input; an axis reaching week 52
      and every week drawn; and ticks every four weeks labelled with the
      rotated months. */
  lemma LineChartFacts(t: EsrTable, valueCol: string, startMonth: int, years: int)
    requires t.hasMyColumn && ColumnNamed(valueCol).Some? && |t.rows| > 0
    ensures SeasonalLine(t, valueCol, startMonth, years).Ok?
    ensures var c := SeasonalLine(t, valueCol, startMonth, years).value;
      var col := ColumnNamed(valueCol).value;
      && IsCmyOf(t.rows, c.cmy)
      && PlotYearsOf(t.rows, c.cmy, years, c.lines)
      && FaithfulLines(t.rows, ColumnValue(col), c.lines, c.xmax)
      && AxisOf(t.rows, c.xmax)
      && c.ticks == Ticks(Months, c.xmax, startMonth)
  {
    var rows := t.rows;
    WeeklyEmptyIffNoRows(rows);
    var col := ColumnNamed(valueCol).value;
    var weekly := Weekly(rows);
    var cmy := CurrentMy(weekly);
    CmyOfInput(rows);
    PlotYearsChosen(rows, years, ColumnValue(col));
    LinesFaithful(rows, PlotYears(MyColumn(weekly), cmy, years), ColumnValue(col));
    XMaxOfInput(rows);
  }

  /** Ticks of an axis that starts in August: at least thirteen of them,
      the first twelve spelling Aug, Sep, ..., Jul, and the thirteenth
      (week 49) still July. */
  predicate AugustToJuly(ticks: seq<Tick<string>>)
  {
    && |ticks| >= 13
    && (forall k :: 0 <= k < 12 ==> ticks[k].text == Months[(k + 7) % 12])
    && ticks[0].text == "Aug"
    && ticks[11].text == "Jul"
    && ticks[12].text == "Jul"
  }

  /** The eighth and seventh entries of the month list. */
  lemma AugustAndJuly()
    ensures Months[7] == "Aug" && Months[6] == "Jul"
  {
  }

  /** `TwelveTicksSpellOrderedMonths` for the default start month: on an
      axis of 52 weeks or more the first twelve ticks spell the month list
      from its eighth entry round to its seventh, and the thirteenth
      (week 49, past week 45) repeats the seventh. */
  lemma DefaultTicksRotate<M>(months: seq<M>, xmax: nat)
    requires |months| == 12
    requires xmax >= MinAxisWeeks
    ensures |Ticks(months, xmax, DefaultStartMonth)| >= 13
    ensures forall k :: 0 <= k < 12 ==> Ticks(months, xmax, DefaultStartMonth)[k].text == months[(k + 7) % 12]
    ensures Ticks(months, xmax, DefaultStartMonth)[12].text == months[6]
  {
    assert Resolve(DefaultStartMonth - 1, 12) == 7;
    forall k | 0 <= k < 12 ensures Ticks(months, xmax, DefaultStartMonth)[k].text == months[(k + 7) % 12] {
      TwelveTicksSpellOrderedMonths(months, xmax, DefaultStartMonth, k);
    }
    TickText(months, xmax, DefaultStartMonth, 12);
    assert LabelIndex(49) == 11;
  }

  /** With the default start month every axis the plots draw (52 weeks or
      more) runs from August to July. */
  lemma DefaultAxisRunsAugustToJuly(xmax: nat)
    requires xmax >= MinAxisWeeks
    ensures AugustToJuly(Ticks(Months, xmax, DefaultStartMonth))
  {
    var ticks := Ticks(Months, xmax, DefaultStartMonth);
    DefaultTicksRotate(Months, xmax);
    AugustAndJuly();
    assert ticks[0].text == Months[7];
    assert ticks[11].text == Months[6];
  }

  /** `seasonal_commitments_plot(df)` as the dashboard calls it, with the
      default start month: the same errors, and an axis from August to
      July. */
  function DefaultSeasonalCommitments(t: EsrTable): (r: Result<CommitmentsChart>)
    ensures r == SeasonalCommitments(t, DefaultStartMonth)
    ensures r.Ok? ==> AugustToJuly(r.value.ticks)
  {
    if t.hasMyColumn && |t.rows| > 0 then
      WeeklyEmptyIffNoRows(t.rows);
      DefaultAxisRunsAugustToJuly(XMax(Weekly(t.rows)));
      SeasonalCommitments(t, DefaultStartMonth)
    else
      SeasonalCommitments(t, DefaultStartMonth)
  }

  /** With `years=5` the line plot draws between one and five years, the
      last of them the CMY, whenever the CMY is among the years present. */
  lemma DefaultYearsEndAtCmy(mys: seq<int>, cmy: int)
    requires cmy in mys
    ensures 1 <= |PlotYears(mys, cmy, DefaultYears)| <= DefaultYears
    ensures PlotYears(mys, cmy, DefaultYears)[|PlotYears(mys, cmy, DefaultYears)| - 1] == cmy
  {
    CmyIsLastPlotYear(mys, cmy, DefaultYears);
  }

  /** The default line chart: an August-to-July axis, and one to five
      lines ending with the CMY. */
  predicate DefaultLineShape(c: LineChart)
  {
    && AugustToJuly(c.ticks)
    && 1 <= |c.lines| <= DefaultYears
    && c.lines[|c.lines| - 1].my == c.cmy
  }

  /** A line chart built the way `seasonal_line_plot` builds it with the
      defaults has the default shape. */
  lemma DefaultShapeOfChart(c: LineChart, r: seq<WeekRow>, mys: seq<int>, q: Quantity)
    requires c.cmy in mys
    requires c.xmax >= MinAxisWeeks && c.ticks == Ticks(Months, c.xmax, DefaultStartMonth)
    requires c.lines == Lines(r, PlotYears(mys, c.cmy, DefaultYears), q)
    ensures DefaultLineShape(c)
  {
    var p := PlotYears(mys, c.cmy, DefaultYears);
    DefaultYearsEndAtCmy(mys, c.cmy);
    LinesFollowYears(r, p, q);
    DefaultAxisRunsAugustToJuly(c.xmax);
  }

  /** The lines follow the selected years one for one. */
  lemma LinesFollowYears(r: seq<WeekRow>, years: seq<int>, q: Quantity)
    requires |years| >= 1
    ensures |Lines(r, years, q)| == |years|
    ensures Lines(r, years, q)[|years| - 1].my == years[|years| - 1]
  {
  }

  /** With the defaults, every input the line plot accepts gives a chart
      with an August-to-July axis and one to five lines ending with the
      CMY. */
  lemma DefaultLineFacts(t: EsrTable, valueCol: string)
    requires t.hasMyColumn && ColumnNamed(valueCol).Some? && |t.rows| > 0
    ensures SeasonalLine(t, valueCol, DefaultStartMonth, DefaultYears).Ok?
    ensures DefaultLineShape(SeasonalLine(t, valueCol, DefaultStartMonth, DefaultYears).value)
  {
    var weekly := Weekly(t.rows);
    WeeklyEmptyIffNoRows(t.rows);
    var cmy := CurrentMy(weekly);
    var xmax := XMax(weekly);
    var q := ColumnValue(ColumnNamed(valueCol).value);
    var c := SeasonalLine(t, valueCol, DefaultStartMonth, DefaultYears).value;
    assert c == LineChart(cmy, Lines(weekly, PlotYears(MyColumn(weekly), cmy, DefaultYears), q),
                          xmax, Ticks(Months, xmax, DefaultStartMonth));
    assert cmy in MyColumn(weekly);
    DefaultShapeOfChart(c, weekly, MyColumn(weekly), q);
  }

  /** `seasonal_line_plot(df, value_col, title)` with the default start
      month and `years=5`: the same errors, an axis from August to July,
      and between one and five lines, the last of them the CMY. */
  function DefaultSeasonalLine(t: EsrTable, valueCol: string): (r: Result<LineChart>)
    ensures r == SeasonalLine(t, valueCol, DefaultStartMonth, DefaultYears)
    ensures r.Ok? ==> DefaultLineShape(r.value)
  {
    if t.hasMyColumn && ColumnNamed(valueCol).Some? && |t.rows| > 0 then
      DefaultLineFacts(t, valueCol);
      SeasonalLine(t, valueCol, DefaultStartMonth, DefaultYears)
    else
      SeasonalLine(t, valueCol, DefaultStartMonth, DefaultYears)
  }
}

=== FILE: slices.dfy ===
/** Python's slice-bound rules on sequences. The dashboard slices lists with
    bounds that may be negative or out of range (`sorted(...)[-years:]`,
    `months[my_start_month-1:]`), and Python resolves such a bound rather
    than failing: a negative bound counts from the end, and any bound is
    clamped into 0..len. */
module Slices {
  import opened Arith

  /** The position a slice bound `k` denotes in a sequence of length `n`. */
  function Resolve(k: int, n: nat): (p: nat)
    ensures p <= n
    ensures 0 <= k ==> p == Min(k, n)
    ensures k < 0 ==> p == Max(0, n + k)
  {
    if k < 0 then (if n + k < 0 then 0 else n + k) else (if k < n then k else n)
  }

  /** `s[k:]` */
  function From<T>(s: seq<T>, k: int): seq<T>
  {
    s[Resolve(k, |s|)..]
  }

  /** `s[:k]` */
  function Upto<T>(s: seq<T>, k: int): seq<T>
  {
    s[..Resolve(k, |s|)]
  }

  /** `s[-n:]`: the last n elements when n > 0, the whole sequence when
      n == 0 (because -0 == 0), and all but the first -n elements when
      n < 0. In every case the result is a suffix of `s`. */
  function LastN<T>(s: seq<T>, n: int): (r: seq<T>)
    ensures |r| == if n > 0 then Min(n, |s|) else if n == 0 then |s| else Max(0, |s| + n)
    ensures r == s[|s| - |r|..]
  {
    From(s, -n)
  }

  /** For any bound, `s[k:] + s[:k]` is a rotation of `s`: it has the same
      elements, and position i holds `s[(i + p) % |s|]` where p is the
      resolved bound. */
  lemma Rotation<T>(s: seq<T>, k: int)
    requires |s| > 0
    ensures |From(s, k) + Upto(s, k)| == |s|
    ensures multiset(From(s, k) + Upto(s, k)) == multiset(s)
    ensures forall i :: 0 <= i < |s| ==> (From(s, k) + Upto(s, k))[i] == s[(i + Resolve(k, |s|)) % |s|]
  {
    var p := Resolve(k, |s|);
    assert s == Upto(s, k) + From(s, k);
    forall i | 0 <= i < |s| ensures (From(s, k) + Upto(s, k))[i] == s[(i + p) % |s|] {
      RotationIndex(s, k, i);
    }
  }

  /** One position of the rotation `s[k:] + s[:k]`. */
  lemma RotationIndex<T>(s: seq<T>, k: int, i: int)
    requires |s| > 0
    requires 0 <= i < |s|
    ensures |From(s, k) + Upto(s, k)| == |s|
    ensures (From(s, k) + Upto(s, k))[i] == s[(i + Resolve(k, |s|)) % |s|]
  {
    var n := |s|;
    var p := Resolve(k, n);
    var a := From(s, k);
    var b := Upto(s, k);
    assert |a| == n - p && |b| == p;
    if i < n - p {
      assert (a + b)[i] == a[i] == s[p + i];
      ModBelow(i + p, n);
    } else {
      assert (a + b)[i] == b[i - (n - p)] == s[i + p - n];
      ModWrap(i + p, n);
    }
  }

  lemma ModBelow(a: int, n: int)
    requires 0 <= a < n
    ensures a % n == a
  {
  }

  lemma ModWrap(a: int, n: int)
    requires 0 < n <= a < 2 * n
    ensures a % n == a - n
  {
    assert a == 1 * n + (a - n);
  }
}

=== FILE: year_selection.dfy ===
/** Which marketing years the seasonal plots draw:
    `sorted([y for y in weekly["MY"].unique() if y < CMY])[-5:]` for the
    commitments plot and
    `sorted([y for y in weekly["MY"].unique() if y <= CMY])[-years:]` for the
    line plot. */
module YearSelection {
  import opened Arith
  import opened Slices

  predicate Increasing(s: seq<int>)
  {
    forall i, j :: 0 <= i < j < |s| ==> s[i] < s[j]
  }

  /** The number of prior years the commitments plot draws. */
  const PriorYearCount: int := 5

  lemma ConsIncreasing(x: int, t: seq<int>)
    ensures Increasing(t) && (forall y :: y in t ==> x < y) ==> Increasing([x] + t)
  {
    if Increasing(t) && (forall y :: y in t ==> x < y) {
      forall i, j | 0 <= i < j < |t| + 1 ensures ([x] + t)[i] < ([x] + t)[j] {
        assert ([x] + t)[j] == t[j - 1];
        assert t[j - 1] in t;
        if i > 0 {
          assert ([x] + t)[i] == t[i - 1];
        }
      }
    }
  }

  /** Inserts `x` at its place in a strictly increasing sequence, unless it
      is already there. */
  function Insert(s: seq<int>, x: int): (r: seq<int>)
    requires Increasing(s)
    ensures Increasing(r)
    ensures forall y :: y in r <==> y in s || y == x
  {
    if |s| == 0 then [x]
    else if x < s[0] then
      assert forall y :: y in s ==> x < y;
      ConsIncreasing(x, s);
      [x] + s
    else if x == s[0] then s
    else
      assert s == [s[0]] + s[1..];
      var tail := Insert(s[1..], x);
      assert forall y :: y in tail ==> s[0] < y;
      ConsIncreasing(s[0], tail);
      [s[0]] + tail
  }

  /** `sorted(xs.unique())`: the distinct values, ascending. */
  function SortedUnique(xs: seq<int>): (r: seq<int>)
    ensures Increasing(r)
    ensures forall y :: y in r <==> y in xs
  {
    if |xs| == 0 then []
    else Insert(SortedUnique(xs[..|xs| - 1]), xs[|xs| - 1])
  }

  /** A strictly increasing sequence is determined by its elements, so any
      sort of the distinct values gives the same list. */
  lemma {:induction false} IncreasingIsUnique(a: seq<int>, b: seq<int>)
    requires Increasing(a) && Increasing(b)
    requires forall y :: y in a <==> y in b
    ensures a == b
  {
    assert |a| > 0 ==> a[0] in a;
    assert |b| > 0 ==> b[0] in b;
    if |a| > 0 && |b| > 0 {
      assert a[0] == b[0] by {
        var i :| 0 <= i < |a| && a[i] == b[0];
        var j :| 0 <= j < |b| && b[j] == a[0];
        assert a[0] <= a[i] && b[0] <= b[j];
      }
      forall y ensures y in a[1..] <==> y in b[1..] {
        if y in a[1..] {
          var k :| 1 <= k < |a| && a[k] == y;
          assert a[0] < y;
          assert y in a;
          var m :| 0 <= m < |b| && b[m] == y;
          assert m != 0;
          assert b[1..][m - 1] == y;
        }
        if y in b[1..] {
          var k :| 1 <= k < |b| && b[k] == y;
          assert b[0] < y;
          assert y in b;
          var m :| 0 <= m < |a| && a[m] == y;
          assert m != 0;
          assert a[1..][m - 1] == y;
        }
      }
      IncreasingIsUnique(a[1..], b[1..]);
      assert a == [a[0]] + a[1..] && b == [b[0]] + b[1..];
    }
  }

  /** A strictly increasing sequence has as many elements as distinct values. */
  lemma {:induction false} IncreasingLength(s: seq<int>)
    requires Increasing(s)
    ensures |s| == |set y | y in s|
  {
    if |s| > 0 {
      var p := s[..|s| - 1];
      IncreasingLength(p);
      assert (set y | y in s) == (set y | y in p) + {s[|s| - 1]};
      assert s[|s| - 1] !in p by {
        forall k | 0 <= k < |p| ensures p[k] != s[|s| - 1] {
          assert s[k] < s[|s| - 1];
        }
      }
    }
  }

  /** `[y for y in s if y < bound]`: every value below the bound as often
      as it occurs in `s`, and no other; an ascending list stays
      ascending. */
  function Below(s: seq<int>, bound: int): (r: seq<int>)
    ensures Increasing(s) ==> Increasing(r)
    ensures forall y :: y in r <==> y in s && y < bound
    ensures forall y :: multiset(r)[y] == if y < bound then multiset(s)[y] else 0
  {
    if |s| == 0 then []
    else if s[0] < bound then
      assert s == [s[0]] + s[1..];
      assert Increasing(s) ==> Increasing(s[1..]);
      var tail := Below(s[1..], bound);
      assert Increasing(s) ==> forall y :: y in tail ==> s[0] < y;
      ConsIncreasing(s[0], tail);
      [s[0]] + tail
    else
      assert s == [s[0]] + s[1..];
      assert Increasing(s) ==> Increasing(s[1..]);
      Below(s[1..], bound)
  }

  /** The years of `mys` below `bound`, ascending and without repeats: as
      many as there are distinct such years. */
  lemma DistinctBelow(mys: seq<int>, bound: int)
    ensures Increasing(Below(SortedUnique(mys), bound))
    ensures |Below(SortedUnique(mys), bound)| == |set y | y in mys && y < bound|
  {
    var below := Below(SortedUnique(mys), bound);
    assert (set y | y in below) == (set y | y in mys && y < bound);
    IncreasingLength(below);
  }

  /** Elements left out of a suffix of an increasing sequence are smaller
      than the elements kept. */
  lemma SuffixKeepsLargest(s: seq<int>, r: seq<int>)
    requires Increasing(s)
    requires |r| <= |s| && r == s[|s| - |r|..]
    ensures Increasing(r)
    ensures forall y, z :: y in s && y !in r && z in r ==> y < z
  {
    var d := |s| - |r|;
    assert forall a :: d <= a < |s| ==> s[a] == r[a - d];
    forall y, z | y in s && y !in r && z in r ensures y < z {
      var a :| 0 <= a < |s| && s[a] == y;
      var b :| 0 <= b < |r| && r[b] == z;
      assert s[d + b] == z;
      assert a < d;
    }
  }

  /** A non-empty suffix of an increasing sequence holds its maximum. */
  lemma MaximumInSuffix(s: seq<int>, r: seq<int>, c: int)
    requires Increasing(s)
    requires 1 <= |r| <= |s| && r == s[|s| - |r|..]
    requires c in s && forall y :: y in s ==> y <= c
    ensures c in r
  {
    var k :| 0 <= k < |s| && s[k] == c;
    assert s[|s| - 1] in s;
    assert k == |s| - 1;
    assert r[|r| - 1] == c;
  }

  /** The facts both year selections rest on: `Below(SortedUnique(mys),
      bound)[-n:]` is an increasing suffix of the distinct years below
      `bound`. */
  lemma {:induction false} SelectionFacts(mys: seq<int>, bound: int, n: int)
    ensures var r := LastN(Below(SortedUnique(mys), bound), n);
      && Increasing(r)
      && (forall y :: y in r ==> y in mys && y < bound)
      && (forall y, z :: y in mys && y < bound && y !in r && z in r ==> y < z)
  {
    var su := SortedUnique(mys);
    var below := Below(su, bound);
    assert Increasing(below);
    assert forall y :: y in below <==> y in mys && y < bound;
    var r := LastN(below, n);
    assert |r| <= |below| && r == below[|below| - |r|..];
    SelectionOfSuffix(below, mys, bound, r);
  }

  /** The facts of `SelectionFacts` for any increasing list holding exactly
      the years of `mys` below `bound`, and any suffix of it. */
  lemma SelectionOfSuffix(below: seq<int>, mys: seq<int>, bound: int, r: seq<int>)
    requires Increasing(below)
    requires forall y :: y in below <==> y in mys && y < bound
    requires |r| <= |below| && r == below[|below| - |r|..]
    ensures Increasing(r)
    ensures forall y :: y in r ==> y in mys && y < bound
    ensures forall y, z :: y in mys && y < bound && y !in r && z in r ==> y < z
  {
    SuffixKeepsLargest(below, r);
    forall y | y in r ensures y in below {
      var k :| 0 <= k < |r| && r[k] == y;
      assert below[|below| - |r| + k] == y;
    }
  }

  /** `prev_years`: the (at most five) latest marketing years before the CMY,
      ascending. */
  function PrevYears(mys: seq<int>, cmy: int): (r: seq<int>)
    ensures Increasing(r)
    ensures forall y :: y in r ==> y in mys && y < cmy
    ensures |r| == Min(PriorYearCount, |set y | y in mys && y < cmy|)
    ensures forall y, z :: y in mys && y < cmy && y !in r && z in r ==> y < z
  {
    DistinctBelow(mys, cmy);
    SelectionFacts(mys, cmy, PriorYearCount);
    LastN(Below(SortedUnique(mys), cmy), PriorYearCount)
  }

  lemma AtMostIsBelowNext(mys: seq<int>, cmy: int)
    ensures (set y | y in mys && y < cmy + 1) == (set y | y in mys && y <= cmy)
  {
  }

  /** `plot_years`: a suffix of the ascending marketing years up to and
      including the CMY, cut by Python's `[-years:]`. For years >= 1 these
      are the latest `years` of them, ending with the CMY when it occurs;
      `[-0:]` keeps them all, and a negative `years` drops the first
      `-years` of them. */
  function PlotYears(mys: seq<int>, cmy: int, years: int): (r: seq<int>)
    ensures Increasing(r)
    ensures forall y :: y in r ==> y in mys && y <= cmy
    ensures var n := |set y | y in mys && y <= cmy|;
      |r| == if years > 0 then Min(years, n) else if years == 0 then n else Max(0, n + years)
    ensures forall y, z :: y in mys && y <= cmy && y !in r && z in r ==> y < z
    ensures years >= 1 && cmy in mys ==> cmy in r
  {
    var upTo := Below(SortedUnique(mys), cmy + 1);
    DistinctBelow(mys, cmy + 1);
    AtMostIsBelowNext(mys, cmy);
    SelectionFacts(mys, cmy + 1, years);
    var r := LastN(upTo, years);
    if years >= 1 && cmy in mys then
      assert cmy in upTo;
      MaximumInSuffix(upTo, r, cmy);
      r
    else r
  }
}
